=== FILE: README.md ===
# Teacher-assistant exam and lesson-plan pages, modelled in Dafny

This project models the logic of four pages of a teacher-assistant web front
end:

- the **exam preview** page, which fetches an exam and shows its questions;
- the **exam-taking** page, where a student enters a name and roll number,
  answers the questions and submits;
- the **cohort results** page: grades, pass/fail, a table sorted by marks and a
  search;
- the **lesson-plan request** form: a duration stepper, a grade drop-down with a
  free-text "Other" entry, and a choice between a JSON and a multipart request.

The pages are React components. The model keeps their decisions as pure
functions over immutable state. Rendering, network requests and browser
effects become parameters.

Modules, one per file:

- `Wrappers` (`wrappers.dfy`): `Option`.
- `Text` (`text.dfy`): the JavaScript built-ins the pages use on strings.
  - Decimal rendering of a non-negative integer inside a template literal, with
    a parser as its inverse.
  - `toLowerCase` on ASCII letters.
  - `includes` and `startsWith`.
  - `trim`, over the ECMAScript whitespace and line-terminator set.
- `Normalizer` (`normalizer.dfy`): turns a fetched exam into one list of tagged
  questions, with its total marks and title. There are two modes.
  - *Lenient* is the preview page: a missing bucket reads as empty.
  - *Strict* is the exam-taking page: a missing bucket throws, and the page
    falls back to "Exam not found".
  - The same module holds the preview page's option letters and its
    choice of view.
- `Session` (`session.dfy`): the exam-taking page.
  - The identity gate in front of the questions.
  - The answer map, keyed by question position.
  - The radio buttons' values.
  - The submission payload, including local 0/1 grading of multiple-choice items.
  - The result route.
  - The choice of view.
- `Results` (`results.dfy`): the results page.
  - Letter grades and pass/fail.
  - The stable sort, highest mark first.
  - The name-or-roll search.
  - Badge colours.
- `LessonPlan` (`lesson_plan.dfy`): the lesson-plan form.
  - Durations are counted in half-hours, so the page's 1.0 hour is 2.
  - The form's edits and its validation.
  - The request body.
  - The `isGenerating` lock.

Behaviour the model keeps exactly as written:

- An unanswered multiple-choice question whose record leaves `correct_answer`
  out is graded 1. Both sides of the `===` are `undefined`
  (`Session.UnansweredWithoutKeyScoresOne`). A `correct_answer` stored as
  `null` is never matched, because `undefined === null` is false
  (`Session.NullKeyNeverScores`).
- A multiple-choice question whose `options` is absent or `null` makes
  `q.options.map` throw, and the page does not render. On the preview page this
  happens as soon as the exam is shown (`Normalizer.PreviewCrashIff`). On the
  exam-taking page it happens once the student has started
  (`Session.ConductCrashIff`).
- A radio carries only the first character of its option. After a choice, the
  `checked` expression is true for every option that begins with the chosen
  character (`Session.ChosenOptionChecked`). Through a non-empty option's radio,
  a `correct_answer` longer than one character is never matched
  (`Session.RadioScore`). An empty option's radio has no `value`, so the browser
  reports "on", and the key "on" is matched through it
  (`Session.EmptyOptionRadioScore`).
- The result route is built from the raw roll number. The model's own route
  reader, `Session.ParseResultRoute`, recovers the id and roll number whenever
  the roll number contains no '/' (`Session.ResultRouteRoundTrip`). The router's
  own matching is not modelled; see "Left out".

## Model

| member | source | states |
|---|---|---|
| Text.NatToString | frontend/src/pages/PreviewExam.jsx:62 | the text a template literal gives a non-negative integer: digits only, at least one, a leading '0' exactly for zero; `Text.ParseNatToString` reads it back |
| Text.ParseNatToString | frontend/src/pages/PreviewExam.jsx:62 | the decimal text a template literal gives `exam_id` reads back as the same number |
| Text.NatToStringInjective | frontend/src/pages/ConductExam.jsx:90 | two different exam ids never render to the same text |
| Text.ToLower | frontend/src/pages/ResultExam.jsx:77-78 | `toLowerCase` keeps the length and maps A-Z to a-z one character at a time, leaving every other character alone |
| Text.Contains | frontend/src/pages/ResultExam.jsx:77-78 | `includes`, a left-to-right scan; `Text.ContainsIff` shows it holds exactly when the needle occurs at some position |
| Text.ContainsIff | frontend/src/pages/ResultExam.jsx:77-78 | `includes` is true exactly when the needle occurs at some position of the haystack |
| Text.Trim | frontend/src/pages/LessonPlan.jsx:89 | `trim()` returns a slice of the input whose removed prefix and suffix are all whitespace, and a non-empty result neither starts nor ends with whitespace |
| Text.TrimEmptyIff | frontend/src/pages/LessonPlan.jsx:89 | `trim()` gives the empty string exactly when every character is whitespace |
| Normalizer.Tag | frontend/src/pages/PreviewExam.jsx:53-55 | the spread keeps every field of the raw question; only `type` and `marks` are set |
| Normalizer.TagAll | frontend/src/pages/PreviewExam.jsx:53-55 | `map` yields one tagged question per raw question, position by position |
| Normalizer.MarksOrOne | frontend/src/pages/PreviewExam.jsx:245 | `q.marks \|\| 1`: the mark counted and shown for a question is at least 1, and is the question's own mark whenever that is positive |
| Normalizer.SumMarks | frontend/src/pages/PreviewExam.jsx:61 | the marks `reduce` over a list is at least its length, and is 0 exactly for an empty list |
| Normalizer.SumMarksAppend | frontend/src/pages/PreviewExam.jsx:61 | the marks `reduce` over two lists joined is the sum of their totals |
| Normalizer.SumMarksTagged | frontend/src/pages/PreviewExam.jsx:61 | a bucket tagged with a positive mark m adds m per question to the total |
| Normalizer.Title | frontend/src/pages/PreviewExam.jsx:62 | builds `Exam #${exam_id}`; what it states is in `Normalizer.TitleNamesExam` |
| Normalizer.TitleNamesExam | frontend/src/pages/PreviewExam.jsx:62 | the title `Exam #${exam_id}` (`Normalizer.Title`) starts with "Exam #" and the exam id reads back from the digits after it |
| Normalizer.FirstRecord | frontend/src/pages/PreviewExam.jsx:46-50 | a record is read exactly when the body is an array whose element 0 is not null |
| Normalizer.ReadBucket | frontend/src/pages/PreviewExam.jsx:53-55 | lenient reading turns a missing bucket into `[]`; strict reading (ConductExam.jsx lines 25-27) fails on it |
| Normalizer.BuildView | frontend/src/pages/PreviewExam.jsx:52-63 | mcq, then one_mark, then three_mark questions are tagged MCQ/1, Theory/1 and Theory/3; total = \|mcq\| + \|one_mark\| + 3·\|three_mark\|; title `Exam #<id>` |
| Normalizer.FromRecord | frontend/src/pages/ConductExam.jsx:24-35 | a record fails to normalise exactly in strict mode with a bucket missing; otherwise its id, title, question count and total marks are those of its buckets |
| Normalizer.Normalize | frontend/src/pages/PreviewExam.jsx:44-63 | no exam exactly when there is no first record, or strict mode meets a missing bucket; otherwise the first record's view |
| Normalizer.Fetched | frontend/src/pages/ConductExam.jsx:36-40 | after the first request, a thrown request leaves no exam (`examData` starts null); a received body is normalised |
| Normalizer.FromRecordBuildsView | frontend/src/pages/ConductExam.jsx:24-35 | whenever strict reading succeeds, it yields the same view as reading the buckets leniently |
| Normalizer.BuildViewOrder | frontend/src/pages/PreviewExam.jsx:52-56 | position i of a built list holds bucket question i, with its fields and tags, for each bucket in turn |
| Normalizer.NormalizedOrder | frontend/src/pages/ConductExam.jsx:24-28 | a normalised question list is mcq, one_mark, three_mark in their own orders, each question untouched except for type and marks |
| Normalizer.LenientMissingBucketIsEmpty | frontend/src/pages/PreviewExam.jsx:53-55 | on the preview a missing bucket gives the same exam as an empty one and is not an error |
| Normalizer.StrictAgreesWithLenient | frontend/src/pages/ConductExam.jsx:24-39 | the exam-taking page fails exactly where the preview fails or a bucket is missing, and otherwise shows the preview's exam |
| Normalizer.DisplayedMarksAreTagged | frontend/src/pages/PreviewExam.jsx:245 | the `q.marks \|\| 1` badge of a normalised question shows its tagged mark: 1 for MCQ, 1 or 3 for theory |
| Normalizer.OptionLabel | frontend/src/pages/PreviewExam.jsx:264 | option i is labelled by UTF-16 code unit (65 + i) mod 2^16, the letters A-Z for the first 26 |
| Normalizer.OptionLabelsDistinct | frontend/src/pages/PreviewExam.jsx:258-264 | no two of the first 2^16 options share a label, and the first 26 are A to Z in order |
| Normalizer.Preview | frontend/src/pages/PreviewExam.jsx:78-124 | "No Exam ID Found" exactly without an exam id; "Loading Exam..." exactly with an id while loading; the exam renders exactly with an exam id, loading over, an exam held and options on every MCQ; the render throws exactly when an MCQ lacks options; "Failed to Load Exam" exactly when loading is over and none is held |
| Normalizer.PreviewCrashIff | frontend/src/pages/PreviewExam.jsx:252-258 | a fetched exam crashes the preview exactly when some question of its mcq bucket has no options |
| Normalizer.PreviewFailsIff | frontend/src/pages/PreviewExam.jsx:110-124 | after the request settles, the preview fails exactly when it threw or the body has no usable first record |
| Session.Start | frontend/src/pages/ConductExam.jsx:62-65 | an empty name or roll number leaves the session unchanged; otherwise the exam is started; identity and answers are kept |
| Session.SetAnswer | frontend/src/pages/ConductExam.jsx:67-69 | the new answer is stored at its position, every other position keeps its answer, and exactly that key is added |
| Session.Lookup | frontend/src/pages/ConductExam.jsx:76-77 | `answers[i]` is present exactly when key i is in the answer map, and then it is the stored answer |
| Session.AnswerChange | frontend/src/pages/ConductExam.jsx:67-69 | an answer change alters nothing but the answer map |
| Session.Step | frontend/src/pages/ConductExam.jsx:100-157 | before the start, typing sets the name or roll number and the start button applies `handleStart`; after it, choosing an answer applies `handleAnswerChange`; every other action changes nothing, and a started exam stays started with the same identity |
| Session.StepKeepsValid | frontend/src/pages/ConductExam.jsx:62-69 | every student action keeps the invariant: started implies name and roll number given, not started implies no answers |
| Session.RunKeepsValid | frontend/src/pages/ConductExam.jsx:62-69 | any sequence of actions keeps that invariant |
| Session.ReachableIsValid | frontend/src/pages/ConductExam.jsx:10-13 | every state reachable from the page's initial state satisfies the invariant |
| Session.RadioValue | frontend/src/pages/ConductExam.jsx:142 | a non-empty option's radio value is its first character alone |
| Session.RadioChecked | frontend/src/pages/ConductExam.jsx:143 | `answers[idx] === opt[0]`, with both sides `undefined` for an unanswered question and an empty option; `Session.ChosenOptionChecked` states it after a choice |
| Session.ChosenOptionChecked | frontend/src/pages/ConductExam.jsx:137-147 | after a radio is chosen, the `checked` expression is true for an option exactly when it is non-empty and begins with the chosen character |
| Session.WireType | frontend/src/pages/ConductExam.jsx:74 | the item `type` sent is "mcq" exactly for an mcq item, "one_mark" exactly for a one_mark item and "three_mark" exactly for a three_mark item |
| Session.ItemWireType | frontend/src/pages/ConductExam.jsx:74 | the `type` sent for a question is "mcq" for MCQ, "one_mark" for theory worth 1 and "three_mark" for other theory |
| Session.KindOf | frontend/src/pages/ConductExam.jsx:74 | an item is mcq exactly for MCQ questions, one_mark exactly for theory questions worth 1, three_mark for the other theory questions |
| Session.StrictEquals | frontend/src/pages/ConductExam.jsx:77 | `answers[i] === q.correct_answer`: `undefined` equals only an absent key, a string only a key of the same text; `Session.LocalMarks` and the scoring lemmas state the consequences |
| Session.LocalMarks | frontend/src/pages/ConductExam.jsx:77 | an MCQ item scores 1 exactly when the stored answer strictly equals `correct_answer`: an answer given equals only the same string; no answer equals only an absent key, never `null`; else 0; a theory item carries its full marks |
| Session.MakeItem | frontend/src/pages/ConductExam.jsx:72-78 | an item copies question and options, sends the stored answer or "" and is graded as above |
| Session.Items | frontend/src/pages/ConductExam.jsx:72 | one item per question, in question order, each built from its own position's answer |
| Session.BuildSubmission | frontend/src/pages/ConductExam.jsx:72-84 | the payload carries the exam id and roll number and one item per question; item i is built from question i and answer i, with "" for every unanswered one |
| Session.McqExactMatch | frontend/src/pages/ConductExam.jsx:77 | with a key present, an MCQ scores 1 exactly when it was answered with that exact text; unanswered scores 0 |
| Session.UnansweredWithoutKeyScoresOne | frontend/src/pages/ConductExam.jsx:76-77 | an unanswered MCQ whose record leaves out `correct_answer` is sent with answer "" and scored 1 |
| Session.NullKeyNeverScores | frontend/src/pages/ConductExam.jsx:77 | an MCQ whose `correct_answer` is `null` scores 0 whether answered or not |
| Session.RadioScore | frontend/src/pages/ConductExam.jsx:142-144 | an MCQ answered through a radio scores 1 exactly when `correct_answer` is that option's first character |
| Session.EmptyOptionRadioScore | frontend/src/pages/ConductExam.jsx:137-144 | through an empty option's radio, whose value is "on", an MCQ scores 1 exactly when `correct_answer` is "on" |
| Session.MaxMarksMatchesSum | frontend/src/pages/ConductExam.jsx:33 | for positively marked questions with MCQ worth 1, items of the questions' kinds, carrying the theory questions' marks, have best attainable marks summing to the `reduce` total |
| Session.SubmissionFollowsBuckets | frontend/src/pages/ConductExam.jsx:72-78 | items from a normalised exam are mcq, then one_mark worth 1, then three_mark worth 3, bucket by bucket |
| Session.SubmissionMaxMarksTotal | frontend/src/pages/ConductExam.jsx:33 | the best marks a submission can earn equal the exam's displayed total |
| Session.ResultRoute | frontend/src/pages/ConductExam.jsx:90 | `/exam/${exam_id}/student/${rollNumber}/result`; `Session.ResultRouteRoundTrip` reads the id and roll number back from it |
| Session.ResultRouteRoundTrip | frontend/src/pages/ConductExam.jsx:90 | for a roll number without '/', the model's route reader reads the result route back as the exam id and roll number it was built from |
| Session.Submit | frontend/src/pages/ConductExam.jsx:86-94 | the payload is always built; the page moves to a route exactly when the post succeeds, and that route is the result route of this exam and roll number |
| Session.SubmitRouteNamesStudent | frontend/src/pages/ConductExam.jsx:86-90 | for a roll number without '/', the model's route reader reads a successful submit's route back as this exam and this student |
| Session.Screen | frontend/src/pages/ConductExam.jsx:97-100 | questions show exactly when loading is over, an exam is held, the exam has started and every MCQ has options; the render throws exactly when started with an MCQ lacking options; the details form exactly before the start; "Exam not found" exactly when loading is over with no exam |
| Session.ConductCrashIff | frontend/src/pages/ConductExam.jsx:135-137 | after the start, a record with every bucket crashes the page exactly when some question of its mcq bucket has no options |
| Session.QuestionsNeedIdentity | frontend/src/pages/ConductExam.jsx:97-122 | no sequence of actions shows questions without a name and roll number, and a record with a missing bucket always shows "Exam not found" |
| Results.CalculateGrade | frontend/src/pages/ResultExam.jsx:46-53 | the grade is the best one whose cut-off (90, 80, 70, 60, 50) the mark reaches, and F otherwise |
| Results.GradeBoundaries | frontend/src/pages/ResultExam.jsx:46-53 | each cut-off mark earns its grade and the mark just below earns the next lower one |
| Results.GradeMonotonic | frontend/src/pages/ResultExam.jsx:46-53 | a higher mark never earns a worse grade |
| Results.LettersDistinct | frontend/src/pages/ResultExam.jsx:47-52 | the grade letters are pairwise different |
| Results.StatusOf | frontend/src/pages/ResultExam.jsx:65 | status is Pass exactly for a score of at least 50 |
| Results.PassIffNotF | frontend/src/pages/ResultExam.jsx:64-65 | a student passes exactly when the grade is not F |
| Results.MakeStudent | frontend/src/pages/ResultExam.jsx:58-66 | a row keeps the given id, roll number, name and mark, is out of 100, has grade `calculateGrade(mark)` (one its mark earns) and status Pass exactly for a mark of at least 50, which is exactly when its grade is not F |
| Results.NonIncreasingPairwise | frontend/src/pages/ResultExam.jsx:70 | in a table sorted highest first, every earlier row has at least the mark of every later row |
| Results.InsertPermutation | frontend/src/pages/ResultExam.jsx:70 | inserting a row adds exactly that row |
| Results.InsertSorted | frontend/src/pages/ResultExam.jsx:70 | inserting into a sorted table keeps it sorted and grows it by one |
| Results.InsertAll | frontend/src/pages/ResultExam.jsx:70 | inserting rows one by one into a sorted table leaves it sorted |
| Results.InsertAllPermutation | frontend/src/pages/ResultExam.jsx:70 | inserting rows one by one keeps exactly the rows given |
| Results.SortByMarks | frontend/src/pages/ResultExam.jsx:70 | the sorted table has marks highest first and holds exactly the input rows |
| Results.SortIsStable | frontend/src/pages/ResultExam.jsx:70 | rows with equal marks keep their input order |
| Results.MatchesSearch | frontend/src/pages/ResultExam.jsx:76-79 | a row matches when its lower-cased name or roll number includes the lower-cased term; `Results.EmptySearchKeepsAll`, `Results.SearchIgnoresTermCase` and `Results.SearchFindsRoll` state its consequences |
| Results.FilterStudents | frontend/src/pages/ResultExam.jsx:76-79 | the rows kept are those of the table matching the name-or-roll search, in table order, each as many times as it occurs in the table |
| Results.EmptySearchKeepsAll | frontend/src/pages/ResultExam.jsx:76-79 | an empty search term keeps every row |
| Results.SearchIgnoresTermCase | frontend/src/pages/ResultExam.jsx:77-78 | two terms equal up to letter case keep the same rows |
| Results.SearchFindsRoll | frontend/src/pages/ResultExam.jsx:78 | typing a row's roll number, in any case, keeps that row |
| Results.SearchKeepsOrder | frontend/src/pages/ResultExam.jsx:70-79 | searching the sorted table leaves it sorted |
| Results.Displayed | frontend/src/pages/ResultExam.jsx:70-79 | the table shown is sorted and holds exactly the loaded rows that match the search, each as many times as it was loaded |
| Results.BadgeFor | frontend/src/pages/ResultExam.jsx:211-215 | emerald exactly for text starting "A", blue exactly for other text starting "B", red exactly for "F" |
| Results.BadgeOfGrade | frontend/src/pages/ResultExam.jsx:211-215 | A+ and A are emerald, B+ and B blue, C amber, F red |
| Results.RedBadgeIffFail | frontend/src/pages/ResultExam.jsx:211-215 | a badge is red exactly for a failing student |
| LessonPlan.Adjust | frontend/src/pages/LessonPlan.jsx:37-42 | +0.5 h adds a half-hour; -0.5 h removes one but never goes below half an hour |
| LessonPlan.NeverBelowHalfHour | frontend/src/pages/LessonPlan.jsx:40 | no sequence of clicks takes a positive duration below half an hour |
| LessonPlan.PlusThenMinus | frontend/src/pages/LessonPlan.jsx:37-42 | +0.5 h then -0.5 h restores any positive duration; -0.5 h at the floor changes nothing |
| LessonPlan.MinusThenPlus | frontend/src/pages/LessonPlan.jsx:37-42 | -0.5 h then +0.5 h restores any duration above the floor |
| LessonPlan.FormatDuration | frontend/src/pages/LessonPlan.jsx:44-50 | `formatDurationDisplay` in half-hours; `LessonPlan.FormatDurationRoundTrip` reads every text back, and the two example lemmas pin each branch's text |
| LessonPlan.FormatDurationRoundTrip | frontend/src/pages/LessonPlan.jsx:44-50 | every duration's display text reads back as that duration |
| LessonPlan.FormatDurationInjective | frontend/src/pages/LessonPlan.jsx:44-50 | two different durations never display the same text |
| LessonPlan.FormatDurationUpToAnHour | frontend/src/pages/LessonPlan.jsx:45-46 | 0, 0.5 and 1 hour display as "0 Mins", "30 Mins" and "1 Hour" |
| LessonPlan.FormatDurationBeyondAnHour | frontend/src/pages/LessonPlan.jsx:47-49 | 1.5 and 2 hours display as "1 Hr 30 Mins" and "2 Hours" |
| LessonPlan.SelectGrade | frontend/src/pages/LessonPlan.jsx:52-60 | the drop-down shows the choice; "Other" clears the grade, any other choice becomes the grade; nothing else changes |
| LessonPlan.TypeCustomGrade | frontend/src/pages/LessonPlan.jsx:62-64 | the typed text becomes the grade and nothing else changes |
| LessonPlan.ListedGradeIsKept | frontend/src/pages/LessonPlan.jsx:17-22 | choosing any listed level leaves that non-empty level as the grade |
| LessonPlan.SubmitEnabled | frontend/src/pages/LessonPlan.jsx:388 | the button is enabled exactly with a topic, a grade and no request in flight; `LessonPlan.Submit` and `LessonPlan.NoDoubleSubmit` use it |
| LessonPlan.CustomGradeMissing | frontend/src/pages/LessonPlan.jsx:89 | the pre-send check fails exactly for "Other" with a grade that trims to ""; `LessonPlan.EnabledRejectsOnlyBlankCustom` restates it as all-whitespace |
| LessonPlan.EnabledRejectsOnlyBlankCustom | frontend/src/pages/LessonPlan.jsx:86-92 | with the button enabled, the pre-send check fails exactly for "Other" with an all-whitespace grade |
| LessonPlan.BuildPayload | frontend/src/pages/LessonPlan.jsx:101-127 | with a file attached the request is multipart with an empty focus and the file; otherwise JSON carrying the typed syllabus; topic and duration always sent |
| LessonPlan.PayloadIgnoresTabAndDroppedText | frontend/src/pages/LessonPlan.jsx:101-127 | the selected tab never affects the request, and with a file attached neither does the typed syllabus |
| LessonPlan.Submit | frontend/src/pages/LessonPlan.jsx:86-94 | a request is sent exactly when the button is enabled and the custom-grade check passes; it is rejected exactly when enabled with a blank custom grade; sending locks the form |
| LessonPlan.Settle | frontend/src/pages/LessonPlan.jsx:147-149 | whatever the reply, the form is unlocked and otherwise unchanged |
| LessonPlan.NoDoubleSubmit | frontend/src/pages/LessonPlan.jsx:388 | while a request is in flight a second submit does nothing |
| LessonPlan.Edit | frontend/src/pages/LessonPlan.jsx:204-377 | each control does its handler's work when on screen: a stepper click applies `Adjust`, a drop-down choice of a listed level or "Other" (the only values the `<select>` offers) `SelectGrade`, typing under "Other" `TypeCustomGrade`, topic and syllabus typing, the tab and file pick or remove set their field; while generating only the tab and the attached file can change; the duration stays positive |
| LessonPlan.EditKeepsGradeMatch | frontend/src/pages/LessonPlan.jsx:52-64 | every edit keeps the grade equal to the drop-down's choice unless "Other" is selected |
| LessonPlan.EditAllKeepsGradeMatch | frontend/src/pages/LessonPlan.jsx:52-64 | any sequence of edits keeps that agreement |
| LessonPlan.EditKeepsGradeListed | frontend/src/pages/LessonPlan.jsx:225-238 | an edit keeps a selected grade other than "Other" a listed level that equals `grade` |
| LessonPlan.EditAllKeepsGradeListed | frontend/src/pages/LessonPlan.jsx:52-58 | any sequence of edits from such a form keeps that |
| LessonPlan.ReachableGradeIsSelected | frontend/src/pages/LessonPlan.jsx:86-92 | from the initial form, when the drop-down does not show "Other" the grade is a listed, non-empty level, so the button is enabled exactly when the topic is non-empty and nothing is generating, and a request is rejected for its grade only after "Other" was chosen |
| LessonPlan.DurationStaysPositive | frontend/src/pages/LessonPlan.jsx:267-288 | no sequence of edits takes a positive duration below half an hour |
| LessonPlan.InitialDurationIsOneHour | frontend/src/pages/LessonPlan.jsx:24-31 | the form opens at "1 Hour" and no edit takes it below half an hour |

## Left out

- Network requests (`fetch`, `axios.post`) are parameters. The preview and
  exam-taking pages receive the parsed body or the fact that the request
  threw. The submit handler receives whether the post succeeded. The
  lesson-plan form stops at the request body it would send.
- `navigate`, `alert`, `console` and `localStorage` are not modelled.
  Navigation appears only as the route string the exam-taking page would go to.
  Whether the preview has an exam id is a parameter.
- The exam-taking page's cheat-prevention listeners (`visibilitychange`,
  `resize`) only raise alerts and change no state.
- The results page's randomly generated cohort (ResultExam.jsx lines 56-67) is
  not modelled. The sort, search and badges are stated for arbitrary rows,
  not only rows built by `Results.MakeStudent`. The random id fallback of the
  lesson-plan form (LessonPlan.jsx line 137) is left out with the navigation
  that uses it.
- The results page's hard-coded summary figures (`examStats`) are not modelled.
  Neither are its percentage bars and rounded percentages, which are floating
  point, nor the `exam_id || 'EX-2024'` header text.
- The lesson-plan form's file-size text in KB (floating point) is not modelled.
  An uploaded file is reduced to a name and a size.
- Radios sharing a `name` form a group in which the browser keeps at most one
  checked. The model states the `checked` expression the page computes, not
  the browser's one-per-group rule.
- `toLowerCase` is modelled on the ASCII letters only. Unicode case mappings
  are not modelled.
- Strings are sequences of Dafny characters (Unicode scalar values). A radio's
  `opt[0]` is modelled as the first character, whereas JavaScript takes the
  first UTF-16 code unit. The two differ only for an option starting outside
  the Basic Multilingual Plane.
- `exam_id` is modelled as a non-negative integer. An exam record without an
  `exam_id` (the page would show `Exam #undefined`) and non-numeric ids are
  not modelled.
- `Text.NatToString` renders an exam id as plain decimal digits. A JSON number
  is a double, and a template literal prints it the same way only below 2^53.
  Above 2^53 JavaScript prints the shortest digits that round-trip, and from
  10^21 on it uses exponent form. Ids that large are not modelled, so
  `Text.ParseNatToString` and `Text.NatToStringInjective` describe ids below
  2^53 only.
- `Session.ParseResultRoute` is the model's own reader of the result route, not
  React Router's matcher. The router also stops a path at '?' or '#', resolves
  '.' and '..' segments and percent-decodes. So `Session.ResultRouteRoundTrip`
  and `Session.SubmitRouteNamesStudent` agree with the router only for roll
  numbers that contain none of '/', '?', '#', '%' and are not "." or "..".
- Durations are counted in half-hours. Every value the stepper can reach is a
  multiple of 0.5, which binary floating point holds exactly, so `toFixed(1)`
  and the rounding in the formatter never change it. Fractional values the
  stepper cannot reach are not modelled.
- The loading flags and effect timing (`setTimeout`, `useEffect` ordering) are
  parameters or left out.
- The lesson-plan preview, announcements and single-result pages and the router
  are not part of this model.
- Session.MaxMarksMatchesSum: requires every question to have positive marks
  and every MCQ to be worth 1. Normalised exams meet both conditions
  (`Normalizer.DisplayedMarksAreTagged`), so the `|| 1` fallback is only
  covered there.

=== FILE: lesson_plan.dfy ===
/** The lesson-plan request form: the half-hour duration stepper and its text,
    the grade drop-down with its "Other" free-text entry, the checks made
    before sending, and the choice between a JSON and a multipart request. */
module LessonPlan {

  import opened Wrappers
  import opened Text

  // ---------------------------------------------------------------------------
  // Duration
  // ---------------------------------------------------------------------------

  /** Durations are counted in half-hours: the page's 1.0 hour is 2. */
  const InitialHalfHours: nat := 2

  /** The -0.5 h and +0.5 h buttons. */
  datatype Step = Minus | Plus

  /** `Math.max(0.5, +(prev.duration + amount).toFixed(1))` in half-hours. The
      values the stepper reaches are multiples of 0.5, which binary floating
      point holds exactly, so rounding to one decimal changes nothing. */
  function Adjust(halves: nat, step: Step): (r: nat)
    ensures r >= 1
    ensures step == Plus ==> r == halves + 1
    ensures step == Minus ==> (halves >= 2 ==> r + 1 == halves) && (halves < 2 ==> r == 1)
  {
    var v := halves as int + (if step == Plus then 1 else -1);
    if v < 1 then 1 else v
  }

  function AdjustAll(halves: nat, steps: seq<Step>): nat
    decreases |steps|
  {
    if |steps| == 0 then halves else AdjustAll(Adjust(halves, steps[0]), steps[1..])
  }

  /** From the initial hour, no sequence of clicks goes below half an hour. */
  lemma {:induction false} NeverBelowHalfHour(halves: nat, steps: seq<Step>)
    requires halves >= 1
    ensures AdjustAll(halves, steps) >= 1
    decreases |steps|
  {
    if |steps| > 0 {
      NeverBelowHalfHour(Adjust(halves, steps[0]), steps[1..]);
    }
  }

  /** +0.5 h then -0.5 h restores the duration; -0.5 h at the floor changes nothing. */
  lemma PlusThenMinus(halves: nat)
    ensures Adjust(Adjust(halves, Plus), Minus) == (if halves == 0 then 1 else halves)
    ensures Adjust(1, Minus) == 1
  {
  }

  /** -0.5 h then +0.5 h restores any duration above the floor. */
  lemma MinusThenPlus(halves: nat)
    requires halves >= 2
    ensures Adjust(Adjust(halves, Minus), Plus) == halves
  {
  }

  /** `formatDurationDisplay`: minutes under an hour, "1 Hour", whole hours, or
      hours and thirty minutes. */
  function FormatDuration(halves: nat): string {
    if halves < 2 then NatToString(halves * 30) + " Mins"
    else if halves == 2 then "1 Hour"
    else
      var h := halves / 2;
      var m := (halves % 2) * 30;
      if m == 0 then NatToString(h) + " Hours"
      else NatToString(h) + " Hr " + NatToString(m) + " Mins"
  }

  predicate EndsWith(s: string, suffix: string) {
    |suffix| <= |s| && s[|s| - |suffix|..] == suffix
  }

  /** Reads a duration back from its display text. */
  function ParseDuration(t: string): Option<nat> {
    if t == "1 Hour" then Some(2)
    else if EndsWith(t, " Hours") then
      match ParseNat(t[..|t| - 6])
      case Some(h) => Some(2 * h)
      case None => None
    else if EndsWith(t, " Hr 30 Mins") then
      match ParseNat(t[..|t| - 11])
      case Some(h) => Some(2 * h + 1)
      case None => None
    else if EndsWith(t, " Mins") then
      match ParseNat(t[..|t| - 5])
      case Some(n) => if n % 30 == 0 then Some(n / 30) else None
      case None => None
    else None
  }

  lemma ThirtyText()
    ensures NatToString(30) == "30"
  {
    assert NatToString(3) == "3";
  }

  /** "<n> Mins" is read back as n / 30 half-hours when n is a multiple of 30. */
  lemma MinsText(n: nat)
    requires n % 30 == 0
    ensures ParseDuration(NatToString(n) + " Mins") == Some(n / 30)
  {
    var d := NatToString(n);
    var t := d + " Mins";
    assert t[..|t| - 5] == d;
    assert t[|t| - 5..] == " Mins";
    assert t != "1 Hour" by {
      assert t[|t| - 1] == 's';
    }
    assert !EndsWith(t, " Hours") by {
      if |t| >= 6 {
        assert t[|t| - 6..][1] == t[|t| - 5] == ' ';
      }
    }
    assert !EndsWith(t, " Hr 30 Mins") by {
      if |t| >= 11 {
        assert t[|t| - 11..][1] == t[|t| - 10] == d[|d| - 5];
      }
    }
    ParseNatToString(n);
  }

  /** "<h> Hours" is read back as 2h half-hours. */
  lemma HoursText(h: nat)
    ensures ParseDuration(NatToString(h) + " Hours") == Some(2 * h)
  {
    var d := NatToString(h);
    var t := d + " Hours";
    assert t[..|t| - 6] == d;
    assert t[|t| - 6..] == " Hours";
    assert t != "1 Hour" by {
      assert t[|t| - 1] == 's';
    }
    ParseNatToString(h);
  }

  /** "<h> Hr 30 Mins" is read back as 2h + 1 half-hours. */
  lemma HalfPastText(h: nat)
    ensures ParseDuration(NatToString(h) + " Hr 30 Mins") == Some(2 * h + 1)
  {
    var d := NatToString(h);
    var t := d + " Hr 30 Mins";
    assert t[..|t| - 11] == d;
    assert t[|t| - 11..] == " Hr 30 Mins";
    assert t != "1 Hour" by {
      assert t[|t| - 1] == 's';
    }
    assert !EndsWith(t, " Hours") by {
      assert t[|t| - 6..][0] == t[|t| - 6] == '0';
    }
    ParseNatToString(h);
  }

  /** Every duration can be read back from its text, so two different durations
      never display alike. */
  lemma FormatDurationRoundTrip(halves: nat)
    ensures ParseDuration(FormatDuration(halves)) == Some(halves)
  {
    if halves == 0 {
      assert FormatDuration(0) == NatToString(0) + " Mins";
      MinsText(0);
    } else if halves == 1 {
      assert FormatDuration(1) == NatToString(30) + " Mins";
      MinsText(30);
    } else if halves > 2 {
      var h := halves / 2;
      if halves % 2 == 0 {
        assert FormatDuration(halves) == NatToString(h) + " Hours";
        HoursText(h);
      } else {
        ThirtyText();
        assert FormatDuration(halves) == NatToString(h) + " Hr 30 Mins";
        HalfPastText(h);
      }
    }
  }

  lemma FormatDurationInjective(a: nat, b: nat)
    requires FormatDuration(a) == FormatDuration(b)
    ensures a == b
  {
    FormatDurationRoundTrip(a);
    FormatDurationRoundTrip(b);
  }

  /** The texts shown below and at one hour. */
  lemma FormatDurationUpToAnHour()
    ensures FormatDuration(0) == "0 Mins"
    ensures FormatDuration(1) == "30 Mins"
    ensures FormatDuration(2) == "1 Hour"
  {
    assert NatToString(0) == "0";
    ThirtyText();
  }

  /** The texts shown for whole and half-past hours. */
  lemma FormatDurationBeyondAnHour()
    ensures FormatDuration(3) == "1 Hr 30 Mins"
    ensures FormatDuration(4) == "2 Hours"
  {
    assert NatToString(1) == "1";
    assert NatToString(2) == "2";
    ThirtyText();
  }

  // ---------------------------------------------------------------------------
  // The form
  // ---------------------------------------------------------------------------

  datatype SyllabusMode = TextMode | UploadMode

  /** An uploaded syllabus; its bytes are forwarded untouched. */
  datatype SyllabusFile = SyllabusFile(name: string, size: nat)

  datatype Form = Form(
    topic: string,
    halfHours: nat,
    grade: string,
    gradeSelect: string,
    mode: SyllabusMode,
    syllabusText: string,
    syllabusFile: Option<SyllabusFile>,
    generating: bool)

  const DefaultGrade := "Grade 10"

  const InitialForm := Form("", InitialHalfHours, DefaultGrade, DefaultGrade, TextMode, "", None, false)

  /** The drop-down's value for a custom grade. */
  const Other := "Other"

  /** The listed education levels, in the drop-down's order. */
  const GradeOptions: seq<string> := [
    "Kindergarten", "Grade 1", "Grade 2", "Grade 3", "Grade 4", "Grade 5", "Grade 6",
    "Grade 7", "Grade 8", "Grade 9", "Grade 10", "Grade 11", "Grade 12",
    "Polytechnic Diploma", "ITI (Industrial Training)", "Vocational Course",
    "B.Tech / B.E.", "B.Sc", "B.Com", "B.A.", "BBA", "BCA", "MBBS", "B.Pharm",
    "M.Tech / M.E.", "M.Sc", "M.Com", "M.A.", "MBA", "MCA", "PhD / Research"]

  /** `handleGradeSelectChange`: "Other" clears the grade for typing, any other
      choice becomes the grade. */
  function SelectGrade(f: Form, value: string): (r: Form)
    ensures r.gradeSelect == value
    ensures r.grade == (if value == Other then "" else value)
    ensures r.(grade := f.grade, gradeSelect := f.gradeSelect) == f
  {
    f.(gradeSelect := value, grade := if value == Other then "" else value)
  }

  /** `handleCustomGradeChange`: the typed text becomes the grade; the drop-down
      stays on "Other". */
  function TypeCustomGrade(f: Form, text: string): (r: Form)
    ensures r.grade == text
    ensures r.(grade := f.grade) == f
  {
    f.(grade := text)
  }

  /** A value the drop-down can report: a listed level or "Other". */
  predicate Selectable(value: string) {
    value in GradeOptions || value == Other
  }

  /** Choosing a listed level always leaves a non-empty grade. */
  lemma ListedGradeIsKept(f: Form, i: nat)
    requires i < |GradeOptions|
    ensures SelectGrade(f, GradeOptions[i]).grade == GradeOptions[i] != ""
  {
  }

  /** The submit button's `disabled` condition, negated. */
  predicate SubmitEnabled(f: Form) {
    f.topic != "" && f.grade != "" && !f.generating
  }

  /** The check `handleSubmit` makes before sending. */
  predicate CustomGradeMissing(f: Form) {
    f.gradeSelect == Other && Trim(f.grade) == ""
  }

  /** Once the button is enabled, the check only catches a custom grade made
      of nothing but whitespace. */
  lemma EnabledRejectsOnlyBlankCustom(f: Form)
    requires SubmitEnabled(f)
    ensures CustomGradeMissing(f) <==> f.gradeSelect == Other && AllWhitespace(f.grade)
  {
    TrimEmptyIff(f.grade);
  }

  // ---------------------------------------------------------------------------
  // Requests
  // ---------------------------------------------------------------------------

  /** The body sent to the generator: JSON, or multipart form data carrying the
      file. `hours` is in half-hours. */
  datatype Payload =
    | Json(topic: string, halfHours: nat, specificFocus: string)
    | Multipart(topic: string, halfHours: nat, specificFocus: string, file: SyllabusFile)

  /** With a file attached the request is multipart and the typed syllabus is
      dropped; otherwise it is JSON carrying the typed syllabus. */
  function BuildPayload(f: Form): (p: Payload)
    ensures p.topic == f.topic && p.halfHours == f.halfHours
    ensures p.Multipart? <==> f.syllabusFile.Some?
    ensures p.Multipart? ==> p.specificFocus == "" && p.file == f.syllabusFile.value
    ensures p.Json? ==> p.specificFocus == f.syllabusText
  {
    match f.syllabusFile
    case Some(file) => Multipart(f.topic, f.halfHours, "", file)
    case None => Json(f.topic, f.halfHours, f.syllabusText)
  }

  /** Neither the selected syllabus tab nor, once a file is attached, the typed
      syllabus affects what is sent. */
  lemma PayloadIgnoresTabAndDroppedText(f: Form, mode: SyllabusMode, text: string)
    ensures BuildPayload(f.(mode := mode)) == BuildPayload(f)
    ensures f.syllabusFile.Some? ==> BuildPayload(f.(syllabusText := text)) == BuildPayload(f)
  {
  }

  /** What a submit does: nothing while the button is disabled, an alert when
      the custom grade is blank, or a request with the form marked generating. */
  datatype SubmitResult = Disabled | Rejected | Sent(payload: Payload, form: Form)

  function Submit(f: Form): (r: SubmitResult)
    ensures r.Sent? <==> SubmitEnabled(f) && !CustomGradeMissing(f)
    ensures r == Rejected <==> SubmitEnabled(f) && CustomGradeMissing(f)
    ensures r.Sent? ==> r.payload == BuildPayload(f) && r.form == f.(generating := true)
  {
    if !SubmitEnabled(f) then Disabled
    else if CustomGradeMissing(f) then Rejected
    else Sent(BuildPayload(f), f.(generating := true))
  }

  /** `finally setIsGenerating(false)`: whatever the reply, the form is usable again. */
  function Settle(f: Form): (r: Form)
    ensures !r.generating && r.(generating := f.generating) == f
  {
    f.(generating := false)
  }

  /** No second request can start while one is in flight. */
  lemma NoDoubleSubmit(f: Form)
    requires Submit(f).Sent?
    ensures Submit(Submit(f).form) == Disabled
  {
  }

  // ---------------------------------------------------------------------------
  // Editing the form
  // ---------------------------------------------------------------------------

  datatype FormEvent =
    | TypeTopic(text: string)
    | StepDuration(step: Step)
    | ChooseGrade(value: string)
    | TypeGrade(text: string)
    | ChooseTab(mode: SyllabusMode)
    | TypeSyllabus(text: string)
    | PickFile(picked: Option<SyllabusFile>)
    | RemoveFile

  /** One edit. An input only acts when its control is on screen: the custom
      grade box while "Other" is selected, the syllabus box on the text tab, the
      upload button on the upload tab with no file attached, the remove button
      with one. The topic, grade, duration, syllabus and upload controls are
      disabled while a plan is generating; the tab buttons and the remove-file
      button are not. A cancelled file picker keeps the previous file. */
  function Edit(f: Form, e: FormEvent): (r: Form)
    ensures r.halfHours >= 1 || r.halfHours == f.halfHours
    ensures r.generating == f.generating
    ensures f.generating ==> r.(mode := f.mode, syllabusFile := f.syllabusFile) == f
    ensures r.syllabusFile != f.syllabusFile ==> f.mode == UploadMode
    ensures r.syllabusFile.Some? && r.syllabusFile != f.syllabusFile ==> !f.generating && f.syllabusFile.None?
    ensures e.ChooseTab? ==> r == f.(mode := e.mode)
    ensures e.RemoveFile? && f.mode == UploadMode && f.syllabusFile.Some? ==> r == f.(syllabusFile := None)
    ensures e.RemoveFile? && !(f.mode == UploadMode && f.syllabusFile.Some?) ==> r == f
    ensures f.generating && !e.ChooseTab? && !e.RemoveFile? ==> r == f
    ensures !f.generating && e.TypeTopic? ==> r == f.(topic := e.text)
    ensures !f.generating && e.StepDuration? ==> r == f.(halfHours := Adjust(f.halfHours, e.step))
    ensures !f.generating && e.ChooseGrade? ==> r == if Selectable(e.value) then SelectGrade(f, e.value) else f
    ensures !f.generating && e.TypeGrade? ==> r == if f.gradeSelect == Other then TypeCustomGrade(f, e.text) else f
    ensures !f.generating && e.TypeSyllabus? ==> r == if f.mode == TextMode then f.(syllabusText := e.text) else f
    ensures !f.generating && e.PickFile? ==>
      r == if f.mode == UploadMode && f.syllabusFile.None? && e.picked.Some? then f.(syllabusFile := e.picked) else f
  {
    match e
    case ChooseTab(mode) => f.(mode := mode)
    case RemoveFile =>
      if f.mode == UploadMode && f.syllabusFile.Some? then f.(syllabusFile := None) else f
    case _ =>
      if f.generating then f
      else match e
        case TypeTopic(text) => f.(topic := text)
        case StepDuration(step) => f.(halfHours := Adjust(f.halfHours, step))
        case ChooseGrade(value) => if Selectable(value) then SelectGrade(f, value) else f
        case TypeGrade(text) => if f.gradeSelect == Other then TypeCustomGrade(f, text) else f
        case TypeSyllabus(text) => if f.mode == TextMode then f.(syllabusText := text) else f
        case PickFile(picked) =>
          if f.mode == UploadMode && f.syllabusFile.None? && picked.Some? then f.(syllabusFile := picked) else f
        case _ => f
  }

  function EditAll(f: Form, events: seq<FormEvent>): Form
    decreases |events|
  {
    if |events| == 0 then f else EditAll(Edit(f, events[0]), events[1..])
  }

  /** Whatever the teacher does to the form from its initial state, the duration
      stays at least half an hour. */
  lemma {:induction false} DurationStaysPositive(f: Form, events: seq<FormEvent>)
    requires f.halfHours >= 1
    ensures EditAll(f, events).halfHours >= 1
    decreases |events|
  {
    if |events| > 0 {
      DurationStaysPositive(Edit(f, events[0]), events[1..]);
    }
  }

  /** Outside "Other" the grade sent is the option the drop-down shows. */
  predicate GradeMatchesSelect(f: Form) {
    f.gradeSelect != Other ==> f.grade == f.gradeSelect
  }

  /** Every edit keeps the grade in step with the drop-down. */
  lemma EditKeepsGradeMatch(f: Form, e: FormEvent)
    requires GradeMatchesSelect(f)
    ensures GradeMatchesSelect(Edit(f, e))
  {
  }

  lemma {:induction false} EditAllKeepsGradeMatch(f: Form, events: seq<FormEvent>)
    requires GradeMatchesSelect(f)
    ensures GradeMatchesSelect(EditAll(f, events))
    decreases |events|
  {
    if |events| > 0 {
      EditKeepsGradeMatch(f, events[0]);
      EditAllKeepsGradeMatch(Edit(f, events[0]), events[1..]);
    }
  }

  /** Outside "Other" the drop-down shows a listed level and the grade is that
      level. */
  predicate GradeListed(f: Form) {
    f.gradeSelect != Other ==> f.gradeSelect in GradeOptions && f.grade == f.gradeSelect
  }

  /** Every edit keeps the drop-down on a listed level or on "Other". */
  lemma EditKeepsGradeListed(f: Form, e: FormEvent)
    requires GradeListed(f)
    ensures GradeListed(Edit(f, e))
  {
  }

  lemma {:induction false} EditAllKeepsGradeListed(f: Form, events: seq<FormEvent>)
    requires GradeListed(f)
    ensures GradeListed(EditAll(f, events))
    decreases |events|
  {
    if |events| > 0 {
      EditKeepsGradeListed(f, events[0]);
      EditAllKeepsGradeListed(Edit(f, events[0]), events[1..]);
    }
  }

  /** From the initial form, outside "Other" the grade is a listed, non-empty
      level. So the button is disabled only for a missing topic or a request in
      flight, and a request can be rejected for its grade only after "Other" was
      chosen: the reason `handleSubmit` checks the grade only under "Other". */
  lemma ReachableGradeIsSelected(events: seq<FormEvent>)
    ensures var f := EditAll(InitialForm, events);
      && GradeMatchesSelect(f)
      && (f.gradeSelect != Other ==> f.grade in GradeOptions && f.grade != "")
      && (f.gradeSelect != Other ==> (SubmitEnabled(f) <==> f.topic != "" && !f.generating))
      && (Submit(f) == Rejected ==> f.gradeSelect == Other)
  {
    assert GradeOptions[10] == DefaultGrade;
    EditAllKeepsGradeListed(InitialForm, events);
    var f := EditAll(InitialForm, events);
    if f.gradeSelect != Other {
      var i :| 0 <= i < |GradeOptions| && GradeOptions[i] == f.grade;
      ListedGradeIsKept(f, i);
    }
  }

  lemma InitialDurationIsOneHour(events: seq<FormEvent>)
    ensures InitialForm.halfHours == 2 && FormatDuration(InitialForm.halfHours) == "1 Hour"
    ensures EditAll(InitialForm, events).halfHours >= 1
  {
    DurationStaysPositive(InitialForm, events);
  }
}

=== FILE: normalizer.dfy ===
/** The question normaliser of the exam pages: the first record of a fetched
    exam array becomes one ordered, tagged question list with its total marks
    and a title. The preview page reads missing buckets as empty (lenient);
    the conduct page dereferences every bucket, so a missing one throws and the
    page falls back to its not-found view (strict). */
module Normalizer {

  import opened Wrappers
  import opened Text

  /** The `correct_answer` field of a stored question: left out of the record
      (read as `undefined`), present as JSON `null`, or a string. */
  datatype AnswerKey = KeyAbsent | KeyNull | Key(text: string)

  /** A question as the exam service stores it, before tagging. `options` is
      None when the field is absent or `null`; the pages treat both alike. */
  datatype RawQuestion = RawQuestion(
    question: string,
    options: Option<seq<string>>,
    correctAnswer: AnswerKey)

  /** One element of the fetched array. A bucket the service left out is None. */
  datatype ExamRecord = ExamRecord(
    examId: nat,
    mcq: Option<seq<RawQuestion>>,
    oneMark: Option<seq<RawQuestion>>,
    threeMark: Option<seq<RawQuestion>>)

  /** The parsed response body: `null`, a JSON value with no element 0 (an
      error object), or an array whose entries may themselves be `null`. */
  datatype Body = Null | NotAnArray | Array(entries: seq<Option<ExamRecord>>)

  /** How the request ended: it threw (network failure, unparsable JSON) or a body arrived. */
  datatype Fetch = Threw | Received(body: Body)

  datatype QuestionType = MCQ | Theory

  /** A raw question spread into a new object with `type` and `marks` set. */
  datatype Question = Question(
    question: string,
    options: Option<seq<string>>,
    correctAnswer: AnswerKey,
    qtype: QuestionType,
    marks: nat)

  datatype ExamView = ExamView(
    examId: nat,
    questions: seq<Question>,
    totalMarks: nat,
    title: string)

  /** Lenient: PreviewExam's `?.map(...) || []`. Strict: ConductExam's bare `.map`. */
  datatype Mode = Lenient | Strict

  // ---------------------------------------------------------------------------
  // Tagging
  // ---------------------------------------------------------------------------

  /** The fields a question carried before tagging. */
  function Untag(q: Question): RawQuestion {
    RawQuestion(q.question, q.options, q.correctAnswer)
  }

  /** `{ ...q, type, marks }`: every field of `q` kept, type and marks set. */
  function Tag(q: RawQuestion, t: QuestionType, marks: nat): (r: Question)
    ensures Untag(r) == q
    ensures r.qtype == t && r.marks == marks
  {
    Question(q.question, q.options, q.correctAnswer, t, marks)
  }

  /** `bucket.map(q => ({ ...q, type: t, marks: m }))`. */
  function TagAll(bucket: seq<RawQuestion>, t: QuestionType, marks: nat): (r: seq<Question>)
    ensures |r| == |bucket|
    ensures forall i :: 0 <= i < |bucket| ==> r[i] == Tag(bucket[i], t, marks)
  {
    seq(|bucket|, i requires 0 <= i < |bucket| => Tag(bucket[i], t, marks))
  }

  // ---------------------------------------------------------------------------
  // Marks
  // ---------------------------------------------------------------------------

  /** `q.marks || 1`: a zero (falsy) mark counts as one. Also the `[marks]` badge
      PreviewExam shows beside each question. */
  function MarksOrOne(q: Question): (m: nat)
    ensures m >= 1
    ensures q.marks > 0 ==> m == q.marks
  {
    if q.marks == 0 then 1 else q.marks
  }

  /** `questions.reduce((sum, q) => sum + (q.marks || 1), 0)`: every question
      adds at least one mark. */
  function SumMarks(qs: seq<Question>): (total: nat)
    ensures total >= |qs|
    ensures total == 0 <==> |qs| == 0
    decreases |qs|
  {
    if |qs| == 0 then 0 else MarksOrOne(qs[0]) + SumMarks(qs[1..])
  }

  lemma {:induction false} SumMarksAppend(a: seq<Question>, b: seq<Question>)
    ensures SumMarks(a + b) == SumMarks(a) + SumMarks(b)
    decreases |a|
  {
    if |a| > 0 {
      assert (a + b)[0] == a[0];
      assert (a + b)[1..] == a[1..] + b;
      SumMarksAppend(a[1..], b);
    } else {
      assert a + b == b;
    }
  }

  /** A bucket tagged with a positive mark contributes that mark per question. */
  lemma {:induction false} SumMarksTagged(bucket: seq<RawQuestion>, t: QuestionType, marks: nat)
    requires marks > 0
    ensures SumMarks(TagAll(bucket, t, marks)) == marks * |bucket|
    decreases |bucket|
  {
    if |bucket| > 0 {
      var tagged := TagAll(bucket, t, marks);
      assert tagged[1..] == TagAll(bucket[1..], t, marks);
      SumMarksTagged(bucket[1..], t, marks);
      assert MarksOrOne(tagged[0]) == marks;
      assert marks * |bucket| == marks + marks * (|bucket| - 1);
    }
  }

  // ---------------------------------------------------------------------------
  // Normalisation
  // ---------------------------------------------------------------------------

  /** `data[0]`, or None when `!data || !data[0]` holds. */
  function FirstRecord(body: Body): (r: Option<ExamRecord>)
    ensures r.Some? <==> body.Array? && |body.entries| > 0 && body.entries[0].Some?
    ensures r.Some? ==> r.value == body.entries[0].value
  {
    match body
    case Array(entries) => if |entries| > 0 then entries[0] else None
    case _ => None
  }

  predicate AllBucketsPresent(rec: ExamRecord) {
    rec.mcq.Some? && rec.oneMark.Some? && rec.threeMark.Some?
  }

  /** The bucket as the given mode reads it; None means the read threw. */
  function ReadBucket(mode: Mode, bucket: Option<seq<RawQuestion>>): (r: Option<seq<RawQuestion>>)
    ensures mode == Lenient ==> r == Some(bucket.GetOr([]))
    ensures mode == Strict ==> r == bucket
  {
    if mode == Lenient then Some(bucket.GetOr([])) else bucket
  }

  /** `Exam #${exam_id}`. */
  function Title(examId: nat): string {
    "Exam #" + NatToString(examId)
  }

  /** The title names its exam: the id can be read back after "Exam #". */
  lemma TitleNamesExam(examId: nat)
    ensures var t := Title(examId);
      StartsWith(t, "Exam #") && ParseNat(t[6..]) == Some(examId)
  {
    var t := Title(examId);
    assert t[..6] == "Exam #";
    assert t[6..] == NatToString(examId);
    ParseNatToString(examId);
  }

  /** The view built from one record whose buckets have been read. */
  function BuildView(examId: nat, m: seq<RawQuestion>, o: seq<RawQuestion>, t: seq<RawQuestion>): (v: ExamView)
    ensures v.examId == examId && v.title == Title(examId)
    ensures |v.questions| == |m| + |o| + |t|
    ensures forall i :: 0 <= i < |m| ==> v.questions[i] == Tag(m[i], MCQ, 1)
    ensures forall i :: 0 <= i < |o| ==> v.questions[|m| + i] == Tag(o[i], Theory, 1)
    ensures forall i :: 0 <= i < |t| ==> v.questions[|m| + |o| + i] == Tag(t[i], Theory, 3)
    ensures v.totalMarks == SumMarks(v.questions) == |m| + |o| + 3 * |t|
  {
    var tm := TagAll(m, MCQ, 1);
    var to := TagAll(o, Theory, 1);
    var tt := TagAll(t, Theory, 3);
    var questions := tm + to + tt;
    SumMarksAppend(tm + to, tt);
    SumMarksAppend(tm, to);
    SumMarksTagged(m, MCQ, 1);
    SumMarksTagged(o, Theory, 1);
    SumMarksTagged(t, Theory, 3);
    ExamView(examId, questions, SumMarks(questions), Title(examId))
  }

  /** The exam one record yields: None exactly when strict mode meets a
      missing bucket. */
  function FromRecord(mode: Mode, rec: ExamRecord): (r: Option<ExamView>)
    ensures r.None? <==> mode == Strict && !AllBucketsPresent(rec)
    ensures r.Some? ==>
      var m := rec.mcq.GetOr([]);
      var o := rec.oneMark.GetOr([]);
      var t := rec.threeMark.GetOr([]);
      && r.value.examId == rec.examId
      && r.value.title == "Exam #" + NatToString(rec.examId)
      && |r.value.questions| == |m| + |o| + |t|
      && r.value.totalMarks == SumMarks(r.value.questions) == |m| + |o| + 3 * |t|
  {
    var m := ReadBucket(mode, rec.mcq);
    var o := ReadBucket(mode, rec.oneMark);
    var t := ReadBucket(mode, rec.threeMark);
    if m.Some? && o.Some? && t.Some? then Some(BuildView(rec.examId, m.value, o.value, t.value))
    else None
  }

  /** The `fetchExam` body of either page: None is the page's failed / not-found
      state, Some the exam it renders. */
  function Normalize(mode: Mode, body: Body): (r: Option<ExamView>)
    ensures r.None? <==>
      FirstRecord(body).None? || (mode == Strict && !AllBucketsPresent(FirstRecord(body).value))
    ensures r.Some? ==> r == FromRecord(mode, body.entries[0].value)
  {
    match FirstRecord(body)
    case None => None
    case Some(rec) => FromRecord(mode, rec)
  }

  /** The exam a page holds once its first request settles: a thrown request
      is caught and leaves `examData` at its initial `null`. The pages fetch
      once per exam id; a refetch, where a throw would keep the earlier exam,
      is not modelled. */
  function Fetched(mode: Mode, f: Fetch): (r: Option<ExamView>)
    ensures f.Threw? ==> r.None?
    ensures f.Received? ==> r == Normalize(mode, f.body)
  {
    match f
    case Threw => None
    case Received(body) => Normalize(mode, body)
  }

  // ---------------------------------------------------------------------------
  // Properties of normalisation
  // ---------------------------------------------------------------------------

  /** A record that normalises yields the view of its buckets read leniently. */
  lemma FromRecordBuildsView(mode: Mode, rec: ExamRecord)
    requires FromRecord(mode, rec).Some?
    ensures FromRecord(mode, rec).value
      == BuildView(rec.examId, rec.mcq.GetOr([]), rec.oneMark.GetOr([]), rec.threeMark.GetOr([]))
  {
  }

  /** Positions of a built view, read back by bucket. */
  lemma BuildViewOrder(examId: nat, m: seq<RawQuestion>, o: seq<RawQuestion>, t: seq<RawQuestion>)
    ensures
      var qs := BuildView(examId, m, o, t).questions;
      && (forall i :: 0 <= i < |m| ==> qs[i].qtype == MCQ && qs[i].marks == 1 && Untag(qs[i]) == m[i])
      && (forall i :: |m| <= i < |m| + |o| ==> qs[i].qtype == Theory && qs[i].marks == 1 && Untag(qs[i]) == o[i - |m|])
      && (forall i :: |m| + |o| <= i < |qs| ==> qs[i].qtype == Theory && qs[i].marks == 3 && Untag(qs[i]) == t[i - |m| - |o|])
  {
    var qs := BuildView(examId, m, o, t).questions;
    forall i | |m| <= i < |m| + |o|
      ensures qs[i] == Tag(o[i - |m|], Theory, 1)
    {
      assert qs[|m| + (i - |m|)] == Tag(o[i - |m|], Theory, 1);
    }
    forall i | |m| + |o| <= i < |qs|
      ensures qs[i] == Tag(t[i - |m| - |o|], Theory, 3)
    {
      assert qs[|m| + |o| + (i - |m| - |o|)] == Tag(t[i - |m| - |o|], Theory, 3);
    }
  }

  /** Where each position of the question list comes from: mcq, then one_mark,
      then three_mark, each kept in its own order and never re-sorted, every
      field but type and marks copied unchanged. */
  lemma NormalizedOrder(mode: Mode, rec: ExamRecord)
    requires FromRecord(mode, rec).Some?
    ensures
      var qs := FromRecord(mode, rec).value.questions;
      var m := rec.mcq.GetOr([]);
      var o := rec.oneMark.GetOr([]);
      var t := rec.threeMark.GetOr([]);
      && |qs| == |m| + |o| + |t|
      && (forall i :: 0 <= i < |m| ==> qs[i].qtype == MCQ && qs[i].marks == 1 && Untag(qs[i]) == m[i])
      && (forall i :: |m| <= i < |m| + |o| ==> qs[i].qtype == Theory && qs[i].marks == 1 && Untag(qs[i]) == o[i - |m|])
      && (forall i :: |m| + |o| <= i < |qs| ==> qs[i].qtype == Theory && qs[i].marks == 3 && Untag(qs[i]) == t[i - |m| - |o|])
  {
    FromRecordBuildsView(mode, rec);
    BuildViewOrder(rec.examId, rec.mcq.GetOr([]), rec.oneMark.GetOr([]), rec.threeMark.GetOr([]));
  }

  /** A missing bucket in lenient mode is read as an empty one: it adds no
      question and no mark, and is not an error. */
  lemma LenientMissingBucketIsEmpty(rec: ExamRecord, rest: seq<Option<ExamRecord>>)
    requires rec.mcq.None? || rec.oneMark.None? || rec.threeMark.None?
    ensures
      var withEmpty := ExamRecord(rec.examId, Some(rec.mcq.GetOr([])), Some(rec.oneMark.GetOr([])), Some(rec.threeMark.GetOr([])));
      && Normalize(Lenient, Array([Some(rec)] + rest)).Some?
      && Normalize(Lenient, Array([Some(rec)] + rest)) == Normalize(Lenient, Array([Some(withEmpty)] + rest))
  {
  }

  /** Strict mode fails exactly when a bucket is missing, and otherwise agrees
      with lenient mode. */
  lemma StrictAgreesWithLenient(body: Body)
    ensures Normalize(Strict, body).None? <==>
      Normalize(Lenient, body).None? || !AllBucketsPresent(FirstRecord(body).value)
    ensures Normalize(Strict, body).Some? ==> Normalize(Strict, body) == Normalize(Lenient, body)
  {
  }

  /** The fallback `q.marks || 1` never fires on a normalised question: the
      badge shows the tagged mark, which is 1 or 3. */
  lemma DisplayedMarksAreTagged(mode: Mode, rec: ExamRecord, i: nat)
    requires FromRecord(mode, rec).Some? && i < |FromRecord(mode, rec).value.questions|
    ensures
      var q := FromRecord(mode, rec).value.questions[i];
      && MarksOrOne(q) == q.marks
      && (q.qtype == MCQ ==> q.marks == 1)
      && (q.qtype == Theory ==> q.marks == 1 || q.marks == 3)
  {
    NormalizedOrder(mode, rec);
  }

  // ---------------------------------------------------------------------------
  // Option labels and the preview page
  // ---------------------------------------------------------------------------

  /** `String.fromCharCode(65 + i)`: the UTF-16 code unit labelling option i
      (the argument is taken modulo 2^16). */
  function OptionLabel(i: nat): (u: nat)
    ensures u < 0x1_0000
    ensures i < 26 ==> u == 'A' as int + i
  {
    (65 + i) % 0x1_0000
  }

  /** The first 26 options are labelled A to Z, and no two of the first 2^16
      options share a label. */
  lemma OptionLabelsDistinct(i: nat, j: nat)
    requires i < j < 0x1_0000
    ensures OptionLabel(i) != OptionLabel(j)
    ensures j < 26 ==> 'A' as int <= OptionLabel(i) < OptionLabel(j) <= 'Z' as int
  {
  }

  /** Both pages call `q.options.map` on every multiple-choice question while
      rendering; on a question without options that call throws, and with no
      error boundary the page renders nothing. */
  predicate OptionsRenderable(v: ExamView) {
    forall i :: 0 <= i < |v.questions| && v.questions[i].qtype == MCQ ==> v.questions[i].options.Some?
  }

  datatype PreviewScreen = NoExamId | Loading | FailedToLoad | ExamPage(view: ExamView) | RenderCrash

  /** Which of PreviewExam's views renders, checked in the page's order. */
  function Preview(hasExamId: bool, loading: bool, exam: Option<ExamView>): (s: PreviewScreen)
    ensures s == NoExamId <==> !hasExamId
    ensures s == Loading <==> hasExamId && loading
    ensures s.ExamPage? <==> hasExamId && !loading && exam.Some? && OptionsRenderable(exam.value)
    ensures s.ExamPage? ==> s.view == exam.value
    ensures s == FailedToLoad <==> hasExamId && !loading && exam.None?
    ensures s == RenderCrash <==> hasExamId && !loading && exam.Some? && !OptionsRenderable(exam.value)
  {
    if !hasExamId then NoExamId
    else if loading then Loading
    else match exam
      case None => FailedToLoad
      case Some(v) => if OptionsRenderable(v) then ExamPage(v) else RenderCrash
  }

  /** The preview crashes exactly when some multiple-choice question of the
      first record lacks options; theory questions never need them. */
  lemma PreviewCrashIff(rec: ExamRecord, rest: seq<Option<ExamRecord>>)
    ensures var m := rec.mcq.GetOr([]);
      Preview(true, false, Normalize(Lenient, Array([Some(rec)] + rest))) == RenderCrash <==>
        exists j :: 0 <= j < |m| && m[j].options.None?
  {
    var body := Array([Some(rec)] + rest);
    var v := FromRecord(Lenient, rec).value;
    var m := rec.mcq.GetOr([]);
    NormalizedOrder(Lenient, rec);
    assert Normalize(Lenient, body) == Some(v);
    if exists j :: 0 <= j < |m| && m[j].options.None? {
      var j :| 0 <= j < |m| && m[j].options.None?;
      assert Untag(v.questions[j]) == m[j];
      assert !OptionsRenderable(v);
    } else {
      forall i | 0 <= i < |v.questions| && v.questions[i].qtype == MCQ
        ensures v.questions[i].options.Some?
      {
        assert Untag(v.questions[i]) == m[i];
      }
    }
  }

  /** Once the request settles, the preview shows "Failed to Load Exam" exactly
      when the request threw or the body had no usable first record. */
  lemma PreviewFailsIff(f: Fetch)
    ensures Preview(true, false, Fetched(Lenient, f)) == FailedToLoad <==>
      f.Threw? || FirstRecord(f.body).None?
  {
  }
}

=== FILE: results.dfy ===
/** The cohort results page: letter grades from marks, pass/fail status, the
    table sorted by marks (highest first), the name-or-roll search, and the
    colour of each grade badge. */
module Results {

  import opened Text

  // ---------------------------------------------------------------------------
  // Grades and status
  // ---------------------------------------------------------------------------

  datatype Grade = APlus | A | BPlus | B | C | F

  /** The text shown for a grade. */
  function Letter(g: Grade): string {
    match g
    case APlus => "A+"
    case A => "A"
    case BPlus => "B+"
    case B => "B"
    case C => "C"
    case F => "F"
  }

  /** Grades ordered from worst (F, 0) to best (A+, 5). */
  function Rank(g: Grade): nat {
    match g
    case F => 0
    case C => 1
    case B => 2
    case BPlus => 3
    case A => 4
    case APlus => 5
  }

  /** The fixed cut-offs: the least mark that earns each grade. F has none. */
  function Threshold(g: Grade): int {
    match g
    case APlus => 90
    case A => 80
    case BPlus => 70
    case B => 60
    case C => 50
    case F => 0
  }

  /** A mark earns a grade when it reaches that grade's cut-off; every mark earns F. */
  predicate Earns(marks: int, g: Grade) {
    g == F || marks >= Threshold(g)
  }

  /** `calculateGrade`: the best grade the mark earns. */
  function CalculateGrade(marks: int): (g: Grade)
    ensures Earns(marks, g)
    ensures forall h: Grade :: Rank(h) > Rank(g) ==> !Earns(marks, h)
  {
    if marks >= 90 then APlus
    else if marks >= 80 then A
    else if marks >= 70 then BPlus
    else if marks >= 60 then B
    else if marks >= 50 then C
    else F
  }

  /** The cut-offs of the grading table, at and just below each boundary. */
  lemma GradeBoundaries()
    ensures CalculateGrade(90) == APlus && CalculateGrade(89) == A
    ensures CalculateGrade(80) == A && CalculateGrade(79) == BPlus
    ensures CalculateGrade(70) == BPlus && CalculateGrade(69) == B
    ensures CalculateGrade(60) == B && CalculateGrade(59) == C
    ensures CalculateGrade(50) == C && CalculateGrade(49) == F
  {
  }

  /** A higher mark never earns a worse grade. */
  lemma GradeMonotonic(m1: int, m2: int)
    requires m1 <= m2
    ensures Rank(CalculateGrade(m1)) <= Rank(CalculateGrade(m2))
  {
    var g1 := CalculateGrade(m1);
    assert Earns(m2, g1);
  }

  /** Different grades show different letters, so the letter determines the grade. */
  lemma LettersDistinct(g: Grade, h: Grade)
    requires Letter(g) == Letter(h)
    ensures g == h
  {
  }

  datatype Status = Pass | Fail

  /** `score >= 50 ? 'Pass' : 'Fail'`. */
  function StatusOf(score: int): (s: Status)
    ensures s == Pass <==> score >= 50
  {
    if score >= 50 then Pass else Fail
  }

  /** A student passes exactly when the grade is not F. */
  lemma PassIffNotF(score: int)
    ensures StatusOf(score) == Pass <==> CalculateGrade(score) != F
  {
  }

  // ---------------------------------------------------------------------------
  // Students
  // ---------------------------------------------------------------------------

  datatype Student = Student(
    id: nat,
    rollNo: string,
    name: string,
    marks: int,
    total: nat,
    grade: Grade,
    status: Status)

  /** A table row: the mark out of 100 with its grade and status. */
  function MakeStudent(id: nat, rollNo: string, name: string, score: int): (st: Student)
    ensures st.id == id && st.rollNo == rollNo && st.name == name
    ensures st.marks == score && st.total == 100
    ensures st.grade == CalculateGrade(score) && st.status == StatusOf(score)
    ensures st.status == Pass <==> st.grade != F
    ensures Earns(score, st.grade)
  {
    Student(id, rollNo, name, score, 100, CalculateGrade(score), StatusOf(score))
  }

  // ---------------------------------------------------------------------------
  // Sorting by marks, highest first
  // ---------------------------------------------------------------------------

  /** Each row's mark is at least the next row's. */
  predicate NonIncreasing(s: seq<Student>) {
    forall i :: 0 < i < |s| ==> s[i - 1].marks >= s[i].marks
  }

  /** In a non-increasing table every earlier row has at least the mark of every later one. */
  lemma {:induction false} NonIncreasingPairwise(s: seq<Student>)
    requires NonIncreasing(s)
    ensures forall i, j :: 0 <= i < j < |s| ==> s[i].marks >= s[j].marks
    decreases |s|
  {
    if |s| > 1 {
      NonIncreasingPairwise(s[1..]);
      forall j | 0 < j < |s| ensures s[0].marks >= s[j].marks {
        if j > 1 {
          assert s[1..][0] == s[1] && s[1..][j - 1] == s[j];
        }
      }
      forall i, j | 0 < i < j < |s| ensures s[i].marks >= s[j].marks {
        assert s[1..][i - 1] == s[i] && s[1..][j - 1] == s[j];
      }
    }
  }

  /** Places `x` after every row whose mark is at least its own. */
  function Insert(x: Student, s: seq<Student>): seq<Student>
    decreases |s|
  {
    if |s| == 0 then [x]
    else if s[0].marks >= x.marks then [s[0]] + Insert(x, s[1..])
    else [x] + s
  }

  /** Inserting adds exactly `x`. */
  lemma {:induction false} InsertPermutation(x: Student, s: seq<Student>)
    ensures multiset(Insert(x, s)) == multiset(s) + multiset{x}
    decreases |s|
  {
    if |s| > 0 && s[0].marks >= x.marks {
      InsertPermutation(x, s[1..]);
      assert s == [s[0]] + s[1..];
    }
  }

  /** Inserting into a non-increasing table keeps it non-increasing. */
  lemma {:induction false} InsertSorted(x: Student, s: seq<Student>)
    requires NonIncreasing(s)
    ensures NonIncreasing(Insert(x, s))
    ensures |Insert(x, s)| == |s| + 1
    ensures Insert(x, s)[0] == (if |s| > 0 && s[0].marks >= x.marks then s[0] else x)
    decreases |s|
  {
    if |s| > 0 && s[0].marks >= x.marks {
      var rest := Insert(x, s[1..]);
      InsertSorted(x, s[1..]);
      var r := [s[0]] + rest;
      forall i | 0 < i < |r| ensures r[i - 1].marks >= r[i].marks {
        if i > 1 {
          assert r[i - 1] == rest[i - 2] && r[i] == rest[i - 1];
        }
      }
    }
  }

  /** Inserts the rows of `rest`, in order, into the sorted `acc`. */
  function InsertAll(acc: seq<Student>, rest: seq<Student>): (r: seq<Student>)
    requires NonIncreasing(acc)
    ensures NonIncreasing(r)
    decreases |rest|
  {
    if |rest| == 0 then acc
    else
      InsertSorted(rest[0], acc);
      InsertAll(Insert(rest[0], acc), rest[1..])
  }

  lemma {:induction false} InsertAllPermutation(acc: seq<Student>, rest: seq<Student>)
    requires NonIncreasing(acc)
    ensures multiset(InsertAll(acc, rest)) == multiset(acc) + multiset(rest)
    decreases |rest|
  {
    if |rest| > 0 {
      InsertSorted(rest[0], acc);
      InsertPermutation(rest[0], acc);
      InsertAllPermutation(Insert(rest[0], acc), rest[1..]);
      assert rest == [rest[0]] + rest[1..];
    }
  }

  /** `students.sort((a, b) => b.marks - a.marks)`: the sort is stable, so rows
      enter in input order and each goes after the rows with a mark at least
      its own. */
  function SortByMarks(s: seq<Student>): (r: seq<Student>)
    ensures NonIncreasing(r)
    ensures multiset(r) == multiset(s)
  {
    InsertAllPermutation([], s);
    InsertAll([], s)
  }

  /** The rows with mark `k`, in order. */
  function WithMarks(s: seq<Student>, k: int): seq<Student>
    decreases |s|
  {
    if |s| == 0 then []
    else (if s[0].marks == k then [s[0]] else []) + WithMarks(s[1..], k)
  }

  /** A sorted list whose head is below `k` has no row with mark `k`. */
  lemma {:induction false} WithMarksBelow(s: seq<Student>, k: int)
    requires NonIncreasing(s) && |s| > 0 && s[0].marks < k
    ensures WithMarks(s, k) == []
    decreases |s|
  {
    if |s| > 1 {
      WithMarksBelow(s[1..], k);
    }
  }

  lemma {:induction false} WithMarksInsert(x: Student, s: seq<Student>, k: int)
    requires NonIncreasing(s)
    ensures WithMarks(Insert(x, s), k) == WithMarks(s, k) + (if x.marks == k then [x] else [])
    decreases |s|
  {
    var xs := if x.marks == k then [x] else [];
    if |s| == 0 {
      WithMarksCons([x], k);
    } else if s[0].marks >= x.marks {
      var rest := Insert(x, s[1..]);
      var head := if s[0].marks == k then [s[0]] else [];
      var r := [s[0]] + rest;
      assert r[0] == s[0] && r[1..] == rest;
      WithMarksCons(r, k);
      WithMarksCons(s, k);
      assert NonIncreasing(s[1..]) by {
        forall i | 0 < i < |s[1..]| ensures s[1..][i - 1].marks >= s[1..][i].marks {
          assert s[1..][i - 1] == s[i] && s[1..][i] == s[i + 1];
        }
      }
      WithMarksInsert(x, s[1..], k);
      var w := WithMarks(s[1..], k);
      assert (head + w) + xs == head + (w + xs);
    } else {
      var r := [x] + s;
      assert r[0] == x && r[1..] == s;
      WithMarksCons(r, k);
      if x.marks == k {
        WithMarksBelow(s, k);
      }
    }
  }

  /** One step of the fold: the first remaining row goes into the sorted prefix. */
  lemma InsertAllStep(acc: seq<Student>, rest: seq<Student>)
    requires NonIncreasing(acc) && |rest| > 0
    ensures NonIncreasing(Insert(rest[0], acc))
    ensures InsertAll(acc, rest) == InsertAll(Insert(rest[0], acc), rest[1..])
  {
    InsertSorted(rest[0], acc);
  }

  lemma WithMarksCons(s: seq<Student>, k: int)
    requires |s| > 0
    ensures WithMarks(s, k) == (if s[0].marks == k then [s[0]] else []) + WithMarks(s[1..], k)
  {
  }

  lemma {:induction false} InsertAllStable(acc: seq<Student>, rest: seq<Student>, k: int)
    requires NonIncreasing(acc)
    ensures WithMarks(InsertAll(acc, rest), k) == WithMarks(acc, k) + WithMarks(rest, k)
    decreases |rest|
  {
    if |rest| > 0 {
      var x := rest[0];
      var xs := if x.marks == k then [x] else [];
      InsertAllStep(acc, rest);
      var acc' := Insert(x, acc);
      WithMarksInsert(x, acc, k);
      WithMarksCons(rest, k);
      InsertAllStable(acc', rest[1..], k);
      var a, b := WithMarks(acc, k), WithMarks(rest[1..], k);
      assert (a + xs) + b == a + (xs + b);
    }
  }

  /** The sort is stable: rows with equal marks keep their input order. */
  lemma SortIsStable(s: seq<Student>, k: int)
    ensures WithMarks(SortByMarks(s), k) == WithMarks(s, k)
  {
    InsertAllStable([], s, k);
  }

  // ---------------------------------------------------------------------------
  // Search
  // ---------------------------------------------------------------------------

  /** `name.toLowerCase().includes(term.toLowerCase()) ||
      rollNo.toLowerCase().includes(term.toLowerCase())`. */
  predicate MatchesSearch(st: Student, term: string) {
    Contains(ToLower(st.name), ToLower(term)) || Contains(ToLower(st.rollNo), ToLower(term))
  }

  /** `sub` is `s` with some rows deleted. */
  predicate IsSubsequence(sub: seq<Student>, s: seq<Student>)
    decreases |s|
  {
    if |sub| == 0 then true
    else if |s| == 0 then false
    else (sub[0] == s[0] && IsSubsequence(sub[1..], s[1..])) || IsSubsequence(sub, s[1..])
  }

  /** `filteredStudents`: the rows the search keeps, in table order. */
  function FilterStudents(s: seq<Student>, term: string): (r: seq<Student>)
    ensures IsSubsequence(r, s)
    ensures forall x :: x in r <==> x in s && MatchesSearch(x, term)
    ensures forall x :: multiset(r)[x] == if MatchesSearch(x, term) then multiset(s)[x] else 0
    decreases |s|
  {
    if |s| == 0 then []
    else
      var rest := FilterStudents(s[1..], term);
      assert s == [s[0]] + s[1..];
      if MatchesSearch(s[0], term) then [s[0]] + rest else rest
  }

  /** An empty search keeps every row. */
  lemma {:induction false} EmptySearchKeepsAll(s: seq<Student>)
    ensures FilterStudents(s, "") == s
    decreases |s|
  {
    if |s| > 0 {
      assert MatchesSearch(s[0], "") by {
        assert ToLower("") == "";
        ContainsEmpty(ToLower(s[0].name));
      }
      EmptySearchKeepsAll(s[1..]);
      assert FilterStudents(s, "") == [s[0]] + FilterStudents(s[1..], "");
      assert s == [s[0]] + s[1..];
    }
  }

  /** The search ignores the case of the term. */
  lemma {:induction false} SearchIgnoresTermCase(s: seq<Student>, t1: string, t2: string)
    requires ToLower(t1) == ToLower(t2)
    ensures FilterStudents(s, t1) == FilterStudents(s, t2)
    decreases |s|
  {
    if |s| > 0 {
      SearchIgnoresTermCase(s[1..], t1, t2);
    }
  }

  /** A string contains itself. */
  lemma ContainsSelf(s: string)
    ensures Contains(s, s)
  {
    assert s[..|s|] == s;
  }

  /** Typing a row's roll number, in any letter case, keeps that row. */
  lemma SearchFindsRoll(s: seq<Student>, x: Student, term: string)
    requires x in s && ToLower(term) == ToLower(x.rollNo)
    ensures x in FilterStudents(s, term)
  {
    ContainsSelf(ToLower(x.rollNo));
  }

  /** Searching the sorted table leaves it sorted. */
  lemma {:induction false} SearchKeepsOrder(s: seq<Student>, term: string)
    requires NonIncreasing(s)
    ensures NonIncreasing(FilterStudents(s, term))
    ensures |FilterStudents(s, term)| > 0 ==> FilterStudents(s, term)[0].marks <= s[0].marks
    decreases |s|
  {
    if |s| > 0 {
      var rest := FilterStudents(s[1..], term);
      SearchKeepsOrder(s[1..], term);
      if MatchesSearch(s[0], term) {
        var r := [s[0]] + rest;
        forall i | 0 < i < |r| ensures r[i - 1].marks >= r[i].marks {
          if i > 1 {
            assert r[i - 1] == rest[i - 2] && r[i] == rest[i - 1];
          }
        }
      }
    }
  }

  /** The rows the table shows: the loaded rows sorted by marks, then narrowed
      by the search. They stay sorted, and a row shows exactly when it was
      loaded and matches the search, as many times as it was loaded. */
  function Displayed(students: seq<Student>, term: string): (rows: seq<Student>)
    ensures NonIncreasing(rows)
    ensures forall x :: x in rows <==> x in students && MatchesSearch(x, term)
    ensures forall x :: multiset(rows)[x] == if MatchesSearch(x, term) then multiset(students)[x] else 0
  {
    var sorted := SortByMarks(students);
    SearchKeepsOrder(sorted, term);
    assert forall x :: x in sorted <==> x in multiset(sorted);
    FilterStudents(sorted, term)
  }

  // ---------------------------------------------------------------------------
  // Grade badge
  // ---------------------------------------------------------------------------

  datatype Badge = Emerald | Blue | Red | Amber

  /** The badge colour chosen from the grade's text: A-grades emerald,
      B-grades blue, F red, anything else amber. */
  function BadgeFor(letter: string): (b: Badge)
    ensures b == Emerald <==> StartsWith(letter, "A")
    ensures b == Blue <==> !StartsWith(letter, "A") && StartsWith(letter, "B")
    ensures b == Red <==> letter == "F"
  {
    StartsWithChar(letter, 'A');
    StartsWithChar(letter, 'B');
    if StartsWith(letter, "A") then Emerald
    else if StartsWith(letter, "B") then Blue
    else if letter == "F" then Red
    else Amber
  }

  /** The colour of each grade's badge; C is the only amber one. */
  lemma BadgeOfGrade(g: Grade)
    ensures BadgeFor(Letter(g)) == (match g
      case APlus => Emerald
      case A => Emerald
      case BPlus => Blue
      case B => Blue
      case C => Amber
      case F => Red)
  {
    StartsWithChar(Letter(g), 'A');
    StartsWithChar(Letter(g), 'B');
  }

  /** A badge is red exactly for a failing student. */
  lemma RedBadgeIffFail(score: int)
    ensures BadgeFor(Letter(CalculateGrade(score))) == Red <==> StatusOf(score) == Fail
  {
  }
}

=== FILE: session.dfy ===
/** The exam-taking page: the identity form that gates the start, the
    positional answer map, the submission payload with its local 0/1 grading
    of multiple-choice items, and the route to the result page. */
module Session {

  import opened Wrappers
  import opened Text
  import opened Normalizer

  /** Answers keyed by question position, as the page's `answers` object. */
  type Answers = map<nat, string>

  datatype Session = Session(
    studentName: string,
    rollNumber: string,
    answers: Answers,
    started: bool)

  /** The page's state when it mounts. */
  const Initial := Session("", "", map[], false)

  // ---------------------------------------------------------------------------
  // Start gate and answer capture
  // ---------------------------------------------------------------------------

  /** `handleStart`: an empty (falsy) name or roll number is rejected with an
      alert and changes nothing; otherwise the exam starts. */
  function Start(s: Session): (r: Session)
    ensures s.studentName == "" || s.rollNumber == "" ==> r == s
    ensures s.studentName != "" && s.rollNumber != "" ==> r.started
    ensures r.started <==> s.started || (s.studentName != "" && s.rollNumber != "")
    ensures r.studentName == s.studentName && r.rollNumber == s.rollNumber && r.answers == s.answers
  {
    if s.studentName == "" || s.rollNumber == "" then s else s.(started := true)
  }

  /** `answers[i]`: the stored answer, or None for `undefined`. */
  function Lookup(a: Answers, i: nat): (r: Option<string>)
    ensures r.Some? <==> i in a
    ensures r.Some? ==> r.value == a[i]
  {
    if i in a then Some(a[i]) else None
  }

  /** `{ ...prev, [idx]: value }`. */
  function SetAnswer(a: Answers, idx: nat, value: string): (r: Answers)
    ensures Lookup(r, idx) == Some(value)
    ensures forall k :: k != idx ==> Lookup(r, k) == Lookup(a, k)
    ensures r.Keys == a.Keys + {idx}
  {
    a[idx := value]
  }

  /** `handleAnswerChange`: only the answer map changes. */
  function AnswerChange(s: Session, idx: nat, value: string): (r: Session)
    ensures r.answers == SetAnswer(s.answers, idx, value)
    ensures r.(answers := s.answers) == s
  {
    s.(answers := SetAnswer(s.answers, idx, value))
  }

  /** What a student can do on the page. The name and roll inputs and the start
      button exist only on the details form; the answer inputs only once the
      exam has started. */
  datatype Event = TypeName(name: string) | TypeRoll(roll: string) | PressStart | Answer(idx: nat, value: string)

  /** One student action, acting only when its control is on screen. */
  function Step(s: Session, e: Event): (r: Session)
    ensures s.started ==> r.started && r.studentName == s.studentName && r.rollNumber == s.rollNumber
    ensures !s.started && !e.PressStart? ==> !r.started
    ensures !s.started ==> r.answers == s.answers
    ensures !s.started && e.TypeName? ==> r == s.(studentName := e.name)
    ensures !s.started && e.TypeRoll? ==> r == s.(rollNumber := e.roll)
    ensures !s.started && e.PressStart? ==> r == Start(s)
    ensures s.started && e.Answer? ==> r == AnswerChange(s, e.idx, e.value)
    ensures s.started && !e.Answer? ==> r == s
    ensures !s.started && e.Answer? ==> r == s
  {
    match e
    case TypeName(name) => if s.started then s else s.(studentName := name)
    case TypeRoll(roll) => if s.started then s else s.(rollNumber := roll)
    case PressStart => if s.started then s else Start(s)
    case Answer(idx, value) => if s.started then AnswerChange(s, idx, value) else s
  }

  function Run(s: Session, events: seq<Event>): Session
    decreases |events|
  {
    if |events| == 0 then s else Run(Step(s, events[0]), events[1..])
  }

  /** The session invariant: an exam runs only for a named student with a roll
      number, and no answer is recorded before it starts. */
  predicate Valid(s: Session) {
    && (s.started ==> s.studentName != "" && s.rollNumber != "")
    && (!s.started ==> s.answers == map[])
  }

  lemma StepKeepsValid(s: Session, e: Event)
    requires Valid(s)
    ensures Valid(Step(s, e))
  {
  }

  /** Every session reachable from the page's initial state is valid. */
  lemma {:induction false} RunKeepsValid(s: Session, events: seq<Event>)
    requires Valid(s)
    ensures Valid(Run(s, events))
    decreases |events|
  {
    if |events| > 0 {
      StepKeepsValid(s, events[0]);
      RunKeepsValid(Step(s, events[0]), events[1..]);
    }
  }

  lemma ReachableIsValid(events: seq<Event>)
    ensures Valid(Run(Initial, events))
  {
    RunKeepsValid(Initial, events);
  }

  // ---------------------------------------------------------------------------
  // Multiple-choice radios
  // ---------------------------------------------------------------------------

  /** The value a radio carries: `opt[0]`, the option's first character. An
      empty option has no `value` attribute, so the browser reports "on". */
  function RadioValue(opt: string): (v: string)
    ensures |opt| > 0 ==> |v| == 1 && v[0] == opt[0]
  {
    if |opt| > 0 then [opt[0]] else "on"
  }

  /** `checked={answers[idx] === opt[0]}`; both sides are `undefined` for an
      unanswered question and an empty option. */
  predicate RadioChecked(a: Answers, idx: nat, opt: string) {
    Lookup(a, idx) == (if |opt| > 0 then Some([opt[0]]) else None)
  }

  /** After a non-empty option is chosen, the `checked` expression holds for
      exactly the options that begin with the same character: the chosen one,
      and any other sharing its initial. */
  lemma ChosenOptionChecked(s: Session, idx: nat, opt: string, other: string)
    requires s.started && |opt| > 0
    ensures var r := Step(s, Answer(idx, RadioValue(opt)));
      && RadioChecked(r.answers, idx, opt)
      && (RadioChecked(r.answers, idx, other) <==> |other| > 0 && other[0] == opt[0])
  {
  }

  // ---------------------------------------------------------------------------
  // Submission
  // ---------------------------------------------------------------------------

  datatype ItemKind = McqItem | OneMarkItem | ThreeMarkItem

  /** The `type` string sent for an item. */
  function WireType(k: ItemKind): (w: string)
    ensures w == "mcq" <==> k.McqItem?
    ensures w == "one_mark" <==> k.OneMarkItem?
    ensures w == "three_mark" <==> k.ThreeMarkItem?
  {
    match k
    case McqItem => "mcq"
    case OneMarkItem => "one_mark"
    case ThreeMarkItem => "three_mark"
  }

  /** One entry of the payload's `items`. The `type` string sent for it is
      `WireType(kind)`. */
  datatype Item = Item(
    question: string,
    kind: ItemKind,
    options: Option<seq<string>>,
    studentAnswer: string,
    marks: nat)

  datatype Submission = Submission(examId: nat, studentId: string, items: seq<Item>)

  /** `q.type === 'MCQ' ? 'mcq' : q.marks === 1 ? 'one_mark' : 'three_mark'`. */
  function KindOf(q: Question): (k: ItemKind)
    ensures k.McqItem? <==> q.qtype.MCQ?
    ensures k.OneMarkItem? <==> q.qtype.Theory? && q.marks == 1
    ensures k.ThreeMarkItem? <==> q.qtype.Theory? && q.marks != 1
  {
    if q.qtype.MCQ? then McqItem else if q.marks == 1 then OneMarkItem else ThreeMarkItem
  }

  /** `answers[i] === q.correct_answer`: a missing answer is `undefined`, which
      equals an absent key but not a `null` one; a stored string equals only
      the same string. */
  predicate StrictEquals(stored: Option<string>, key: AnswerKey) {
    match stored
    case None => key.KeyAbsent?
    case Some(text) => key == Key(text)
  }

  /** The outgoing `marks`: a multiple-choice item is graded here, 1 when the
      stored answer is strictly equal to `correct_answer` and 0 otherwise; a
      theory item carries its maximum, left for the grading service. */
  function LocalMarks(q: Question, stored: Option<string>): (m: nat)
    ensures q.qtype == MCQ ==> m <= 1
    ensures q.qtype == MCQ && stored.Some? ==> (m == 1 <==> q.correctAnswer == Key(stored.value))
    ensures q.qtype == MCQ && stored.None? ==> (m == 1 <==> q.correctAnswer == KeyAbsent)
    ensures q.qtype == Theory ==> m == q.marks
  {
    if q.qtype == MCQ then (if StrictEquals(stored, q.correctAnswer) then 1 else 0) else q.marks
  }

  /** The item for question `i`: `answers[i] || ''` as the answer text. */
  function MakeItem(q: Question, a: Answers, i: nat): (it: Item)
    ensures it.question == q.question && it.options == q.options
    ensures it.studentAnswer == (if i in a then a[i] else "")
    ensures it.kind == KindOf(q) && it.marks == LocalMarks(q, Lookup(a, i))
  {
    Item(q.question, KindOf(q), q.options, Lookup(a, i).GetOr(""), LocalMarks(q, Lookup(a, i)))
  }

  /** `examData.questions.map((q, i) => ...)`: one item per question, in order. */
  function Items(qs: seq<Question>, a: Answers): (items: seq<Item>)
    ensures |items| == |qs|
    ensures forall i :: 0 <= i < |qs| ==> items[i] == MakeItem(qs[i], a, i)
  {
    seq(|qs|, i requires 0 <= i < |qs| => MakeItem(qs[i], a, i))
  }

  /** The payload `handleSubmit` posts. */
  function BuildSubmission(exam: ExamView, s: Session): (p: Submission)
    ensures p.examId == exam.examId && p.studentId == s.rollNumber
    ensures |p.items| == |exam.questions|
    ensures forall i :: 0 <= i < |p.items| && i !in s.answers ==> p.items[i].studentAnswer == ""
    ensures forall i :: 0 <= i < |p.items| ==> p.items[i] == MakeItem(exam.questions[i], s.answers, i)
  {
    Submission(exam.examId, s.rollNumber, Items(exam.questions, s.answers))
  }

  /** An unanswered multiple-choice question scores 0 whenever it has a correct
      answer, and an answer differing from it in any character scores 0. */
  lemma McqExactMatch(q: Question, a: Answers, i: nat)
    requires q.qtype == MCQ && q.correctAnswer.Key?
    ensures MakeItem(q, a, i).marks == 1 <==> i in a && a[i] == q.correctAnswer.text
    ensures i !in a ==> MakeItem(q, a, i).marks == 0
  {
  }

  /** An unanswered multiple-choice question that lacks `correct_answer` scores
      1: `undefined === undefined` holds. */
  lemma UnansweredWithoutKeyScoresOne(q: Question, a: Answers, i: nat)
    requires q.qtype == MCQ && q.correctAnswer == KeyAbsent && i !in a
    ensures MakeItem(q, a, i).marks == 1 && MakeItem(q, a, i).studentAnswer == ""
  {
  }

  /** With `correct_answer: null` the same unanswered question scores 0:
      `undefined === null` is false, and no stored string equals `null`. */
  lemma NullKeyNeverScores(q: Question, a: Answers, i: nat)
    requires q.qtype == MCQ && q.correctAnswer == KeyNull
    ensures MakeItem(q, a, i).marks == 0
  {
  }

  /** Through the radio buttons a stored answer is one character long, so a
      multiple-choice question scores 1 only if its `correct_answer` is that
      single character. */
  lemma RadioScore(s: Session, idx: nat, q: Question, opt: string)
    requires s.started && q.qtype == MCQ && |opt| > 0
    ensures var r := Step(s, Answer(idx, RadioValue(opt)));
      MakeItem(q, r.answers, idx).marks == 1 <==> q.correctAnswer == Key([opt[0]])
  {
  }

  /** An empty option's radio carries "on", so through it a multiple-choice
      question scores 1 exactly when its `correct_answer` is "on". */
  lemma EmptyOptionRadioScore(s: Session, idx: nat, q: Question)
    requires s.started && q.qtype == MCQ
    ensures var r := Step(s, Answer(idx, RadioValue("")));
      MakeItem(q, r.answers, idx).marks == 1 <==> q.correctAnswer == Key("on")
  {
  }

  /** The `type` string sent for a question: "mcq" for a multiple-choice
      question, "one_mark" for a theory question worth 1, "three_mark" for any
      other theory question. */
  lemma ItemWireType(q: Question, a: Answers, i: nat)
    ensures WireType(MakeItem(q, a, i).kind) ==
      if q.qtype == MCQ then "mcq" else if q.marks == 1 then "one_mark" else "three_mark"
  {
  }

  /** The sum of the maximum marks an item can earn (1 for a multiple-choice
      item, the carried marks for a theory item). */
  function MaxMarks(items: seq<Item>): nat
    decreases |items|
  {
    if |items| == 0 then 0
    else (if items[0].kind == McqItem then 1 else items[0].marks) + MaxMarks(items[1..])
  }

  lemma {:induction false} MaxMarksMatchesSum(qs: seq<Question>, items: seq<Item>)
    requires forall i :: 0 <= i < |qs| ==> qs[i].marks > 0 && (qs[i].qtype == MCQ ==> qs[i].marks == 1)
    requires |items| == |qs|
    requires forall i :: 0 <= i < |qs| ==> items[i].kind == KindOf(qs[i])
    requires forall i :: 0 <= i < |qs| && qs[i].qtype == Theory ==> items[i].marks == qs[i].marks
    ensures MaxMarks(items) == SumMarks(qs)
    decreases |qs|
  {
    if |qs| > 0 {
      MaxMarksMatchesSum(qs[1..], items[1..]);
    }
  }

  /** Assembling an exam read from one record puts every item back in the
      bucket its question came from: one_mark items carry 1, three_mark items 3. */
  lemma SubmissionFollowsBuckets(mode: Mode, rec: ExamRecord, s: Session)
    requires FromRecord(mode, rec).Some?
    ensures
      var items := BuildSubmission(FromRecord(mode, rec).value, s).items;
      var m := |rec.mcq.GetOr([])|;
      var o := |rec.oneMark.GetOr([])|;
      && |items| == m + o + |rec.threeMark.GetOr([])|
      && (forall i :: 0 <= i < m ==> items[i].kind == McqItem)
      && (forall i :: m <= i < m + o ==> items[i].kind == OneMarkItem && items[i].marks == 1)
      && (forall i :: m + o <= i < |items| ==> items[i].kind == ThreeMarkItem && items[i].marks == 3)
  {
    NormalizedOrder(mode, rec);
  }

  /** Every question read from one record carries a positive mark, and a
      multiple-choice one carries 1. */
  lemma QuestionMarksTagged(mode: Mode, rec: ExamRecord)
    requires FromRecord(mode, rec).Some?
    ensures var qs := FromRecord(mode, rec).value.questions;
      forall i :: 0 <= i < |qs| ==> qs[i].marks > 0 && (qs[i].qtype == MCQ ==> qs[i].marks == 1)
  {
    var qs := FromRecord(mode, rec).value.questions;
    forall i | 0 <= i < |qs| ensures qs[i].marks > 0 && (qs[i].qtype == MCQ ==> qs[i].marks == 1) {
      DisplayedMarksAreTagged(mode, rec, i);
    }
  }

  /** The items' maximum marks add up to the exam's total. */
  lemma SubmissionMaxMarksTotal(mode: Mode, rec: ExamRecord, s: Session)
    requires FromRecord(mode, rec).Some?
    ensures
      var exam := FromRecord(mode, rec).value;
      MaxMarks(BuildSubmission(exam, s).items) == exam.totalMarks
  {
    var exam := FromRecord(mode, rec).value;
    var qs := exam.questions;
    QuestionMarksTagged(mode, rec);
    assert exam.totalMarks == SumMarks(qs);
    var items := Items(qs, s.answers);
    forall i | 0 <= i < |qs|
      ensures items[i].kind == KindOf(qs[i])
      ensures qs[i].qtype == Theory ==> items[i].marks == qs[i].marks
    {
      assert items[i] == MakeItem(qs[i], s.answers, i);
    }
    MaxMarksMatchesSum(qs, items);
    assert BuildSubmission(exam, s).items == items;
  }

  // ---------------------------------------------------------------------------
  // Sending and the result route
  // ---------------------------------------------------------------------------

  /** `/exam/${exam_id}/student/${rollNumber}/result`. */
  function ResultRoute(examId: nat, roll: string): string {
    "/exam/" + NatToString(examId) + "/student/" + roll + "/result"
  }

  /** Index of the first '/' in `s`, or |s| when there is none. */
  function SlashIndex(s: string): (k: nat)
    ensures k <= |s|
    ensures forall j :: 0 <= j < k ==> s[j] != '/'
    ensures k < |s| ==> s[k] == '/'
    decreases |s|
  {
    if |s| == 0 || s[0] == '/' then 0 else 1 + SlashIndex(s[1..])
  }

  /** Reads an exam id and roll number back from a result route. */
  function ParseResultRoute(path: string): Option<(nat, string)> {
    if !StartsWith(path, "/exam/") then None
    else
      var rest := path[6..];
      var k := SlashIndex(rest);
      var tail := rest[k..];
      if !StartsWith(tail, "/student/") then None
      else
        var roll := tail[9..];
        if |roll| < 7 || roll[|roll| - 7..] != "/result" then None
        else match ParseNat(rest[..k])
          case None => None
          case Some(id) => Some((id, roll[..|roll| - 7]))
  }

  /** A run of digits followed by a '/' ends at that '/'. */
  lemma {:induction false} SlashAfterDigits(d: string, t: string)
    requires AllDigits(d) && |t| > 0 && t[0] == '/'
    ensures SlashIndex(d + t) == |d|
    decreases |d|
  {
    if |d| > 0 {
      assert (d + t)[0] == d[0];
      assert (d + t)[1..] == d[1..] + t;
      SlashAfterDigits(d[1..], t);
    }
  }

  /** The part after the exam id parses back to the roll number. */
  lemma StudentSuffix(roll: string)
    ensures var tail := "/student/" + roll + "/result";
      && StartsWith(tail, "/student/")
      && var r := tail[9..];
      && |r| >= 7 && r[|r| - 7..] == "/result" && r[..|r| - 7] == roll
  {
    var tail := "/student/" + roll + "/result";
    assert tail[..9] == "/student/";
    var r := tail[9..];
    assert r == roll + "/result";
  }

  /** The route names the exam and the student it was built from, as long as
      the roll number contains no '/'. */
  lemma ResultRouteRoundTrip(examId: nat, roll: string)
    requires '/' !in roll
    ensures ParseResultRoute(ResultRoute(examId, roll)) == Some((examId, roll))
  {
    var id := NatToString(examId);
    var tail := "/student/" + roll + "/result";
    var path := ResultRoute(examId, roll);
    assert path == "/exam/" + (id + tail);
    assert StartsWith(path, "/exam/") by {
      assert path[..6] == "/exam/";
    }
    var rest := path[6..];
    assert rest == id + tail;
    SlashAfterDigits(id, tail);
    assert rest[..|id|] == id;
    assert rest[|id|..] == tail;
    StudentSuffix(roll);
    ParseNatToString(examId);
  }

  /** What a submit click produces: the payload always, and the next route only
      when the post succeeded. */
  datatype SubmitOutcome = SubmitOutcome(payload: Submission, next: Option<string>)

  /** `handleSubmit`, with the post's success as a parameter. A failed post
      leaves the page where it is, so the student can submit again. */
  function Submit(exam: ExamView, s: Session, delivered: bool): (o: SubmitOutcome)
    ensures o.payload == BuildSubmission(exam, s)
    ensures o.next.Some? <==> delivered
    ensures delivered ==> o.next == Some(ResultRoute(exam.examId, s.rollNumber))
  {
    SubmitOutcome(
      BuildSubmission(exam, s),
      if delivered then Some(ResultRoute(exam.examId, s.rollNumber)) else None)
  }

  /** A delivered submission navigates to the result page of this exam and
      this student, as long as the roll number holds no `/`. */
  lemma SubmitRouteNamesStudent(exam: ExamView, s: Session)
    requires '/' !in s.rollNumber
    ensures ParseResultRoute(Submit(exam, s, true).next.value) == Some((exam.examId, s.rollNumber))
  {
    ResultRouteRoundTrip(exam.examId, s.rollNumber);
  }

  // ---------------------------------------------------------------------------
  // Which view renders
  // ---------------------------------------------------------------------------

  /** `QuestionsCrash`: once started, a multiple-choice question without
      `options` makes `q.options.map` throw and the page does not render. */
  datatype ConductScreen = LoadingExam | NotFound | Details | Questions(view: ExamView) | QuestionsCrash

  /** The page's render chain: loading, then not found, then the details form
      until the exam has started, then the questions. */
  function Screen(loading: bool, exam: Option<ExamView>, s: Session): (v: ConductScreen)
    ensures v.Questions? <==> !loading && exam.Some? && s.started && OptionsRenderable(exam.value)
    ensures v.Questions? ==> v.view == exam.value
    ensures v == QuestionsCrash <==> !loading && exam.Some? && s.started && !OptionsRenderable(exam.value)
    ensures v == Details <==> !loading && exam.Some? && !s.started
    ensures v == NotFound <==> !loading && exam.None?
  {
    if loading then LoadingExam
    else if exam.None? then NotFound
    else if !s.started then Details
    else if OptionsRenderable(exam.value) then Questions(exam.value)
    else QuestionsCrash
  }

  /** Once the student has started, the exam page fails to render exactly when
      a multiple-choice question of the stored record has no options. */
  lemma ConductCrashIff(rec: ExamRecord, rest: seq<Option<ExamRecord>>, s: Session)
    requires AllBucketsPresent(rec) && s.started
    ensures Screen(false, Normalize(Strict, Array([Some(rec)] + rest)), s) == QuestionsCrash <==>
      exists j :: 0 <= j < |rec.mcq.value| && rec.mcq.value[j].options.None?
  {
    var body := Array([Some(rec)] + rest);
    StrictAgreesWithLenient(body);
    PreviewCrashIff(rec, rest);
  }

  /** No question is shown before a name and a roll number have been given,
      whatever the student did, and a missing bucket shows "Exam not found". */
  lemma QuestionsNeedIdentity(f: Fetch, events: seq<Event>)
    ensures var s := Run(Initial, events);
      Screen(false, Fetched(Strict, f), s).Questions? ==> s.studentName != "" && s.rollNumber != ""
    ensures f.Received? && FirstRecord(f.body).Some? && !AllBucketsPresent(FirstRecord(f.body).value)
      ==> Screen(false, Fetched(Strict, f), Run(Initial, events)) == NotFound
  {
    ReachableIsValid(events);
  }
}

=== FILE: text.dfy ===
/** String helpers the pages rely on through JavaScript built-ins: decimal
    rendering of integers in template literals, `toLowerCase`, `includes`,
    `startsWith` and `trim`. */
module Text {

  import opened Wrappers

  // ---------------------------------------------------------------------------
  // Decimal numerals
  // ---------------------------------------------------------------------------

  predicate IsDigit(c: char) {
    '0' <= c <= '9'
  }

  predicate AllDigits(s: string) {
    forall i :: 0 <= i < |s| ==> IsDigit(s[i])
  }

  function DigitChar(d: nat): (c: char)
    requires d < 10
    ensures IsDigit(c)
    ensures c as int - '0' as int == d
  {
    ('0' as int + d) as char
  }

  function DigitValue(c: char): (d: nat)
    requires IsDigit(c)
    ensures d < 10
    ensures DigitChar(d) == c
  {
    c as int - '0' as int
  }

  /** The text a template literal produces for a non-negative integer. */
  function NatToString(n: nat): (s: string)
    ensures |s| >= 1
    ensures AllDigits(s)
    ensures s[0] == '0' <==> n == 0
    decreases n
  {
    if n < 10 then [DigitChar(n)] else NatToString(n / 10) + [DigitChar(n % 10)]
  }

  /** The number a string of decimal digits denotes. */
  function DigitsValue(s: string): nat
    requires AllDigits(s)
  {
    if |s| == 0 then 0 else 10 * DigitsValue(s[..|s| - 1]) + DigitValue(s[|s| - 1])
  }

  /** Reads a decimal numeral; None unless `s` is a non-empty run of digits. */
  function ParseNat(s: string): (r: Option<nat>)
    ensures r.Some? <==> |s| > 0 && AllDigits(s)
  {
    if |s| > 0 && AllDigits(s) then Some(DigitsValue(s)) else None
  }

  lemma {:induction false} DigitsValueOfNatToString(n: nat)
    ensures DigitsValue(NatToString(n)) == n
    decreases n
  {
    if n >= 10 {
      var prefix := NatToString(n / 10);
      var s := prefix + [DigitChar(n % 10)];
      assert s[..|s| - 1] == prefix;
      DigitsValueOfNatToString(n / 10);
    }
  }

  /** Decimal rendering and reading are inverse. */
  lemma ParseNatToString(n: nat)
    ensures ParseNat(NatToString(n)) == Some(n)
  {
    DigitsValueOfNatToString(n);
  }

  /** Different numbers never render to the same text. */
  lemma NatToStringInjective(m: nat, n: nat)
    requires NatToString(m) == NatToString(n)
    ensures m == n
  {
    ParseNatToString(m);
    ParseNatToString(n);
  }

  // ---------------------------------------------------------------------------
  // Case folding (`toLowerCase`)
  // ---------------------------------------------------------------------------

  function LowerChar(c: char): (r: char)
    ensures 'A' <= c <= 'Z' ==> r as int == c as int + 32
    ensures !('A' <= c <= 'Z') ==> r == c
  {
    if 'A' <= c <= 'Z' then (c as int + 32) as char else c
  }

  /** Lower-cases every letter A-Z and leaves every other character alone. */
  function ToLower(s: string): (r: string)
    ensures |r| == |s|
    ensures forall i :: 0 <= i < |s| ==> r[i] == LowerChar(s[i])
  {
    seq(|s|, i requires 0 <= i < |s| => LowerChar(s[i]))
  }

  // ---------------------------------------------------------------------------
  // Prefixes and substrings (`startsWith`, `includes`)
  // ---------------------------------------------------------------------------

  predicate StartsWith(s: string, prefix: string) {
    |prefix| <= |s| && s[..|prefix|] == prefix
  }

  /** A one-character prefix test looks at the first character only. */
  lemma StartsWithChar(s: string, c: char)
    ensures StartsWith(s, [c]) <==> |s| > 0 && s[0] == c
  {
  }

  /** `needle` occupies positions i .. i + |needle| of `hay`. */
  predicate OccursAt(hay: string, needle: string, i: nat) {
    i + |needle| <= |hay| && hay[i..i + |needle|] == needle
  }

  /** `hay.includes(needle)`, scanning from the left. */
  predicate Contains(hay: string, needle: string)
    decreases |hay|
  {
    StartsWith(hay, needle) || (|hay| > 0 && Contains(hay[1..], needle))
  }

  /** Shifting the haystack by one character shifts every occurrence by one. */
  lemma OccursAtShift(hay: string, needle: string, i: nat)
    requires |hay| > 0
    ensures OccursAt(hay, needle, i + 1) <==> OccursAt(hay[1..], needle, i)
  {
    if i + 1 + |needle| <= |hay| {
      assert hay[i + 1..i + 1 + |needle|] == hay[1..][i..i + |needle|];
    }
  }

  /** The scan finds `needle` exactly when it occurs at some position. */
  lemma {:induction false} ContainsIff(hay: string, needle: string)
    ensures Contains(hay, needle) <==> exists i: nat :: OccursAt(hay, needle, i)
    decreases |hay|
  {
    if StartsWith(hay, needle) {
      assert OccursAt(hay, needle, 0);
    } else if |hay| == 0 {
      assert |needle| > 0;
    } else {
      ContainsIff(hay[1..], needle);
      if Contains(hay[1..], needle) {
        var i: nat :| OccursAt(hay[1..], needle, i);
        OccursAtShift(hay, needle, i);
      } else {
        forall i: nat ensures !OccursAt(hay, needle, i) {
          if i > 0 {
            OccursAtShift(hay, needle, i - 1);
          }
        }
      }
    }
  }

  /** The empty string occurs in every string. */
  lemma ContainsEmpty(hay: string)
    ensures Contains(hay, "")
  {
    assert StartsWith(hay, "");
  }

  // ---------------------------------------------------------------------------
  // Whitespace trimming (`trim`)
  // ---------------------------------------------------------------------------

  /** ECMAScript WhiteSpace and LineTerminator code points, the set `trim` removes. */
  predicate IsWhitespace(c: char) {
    || c == '\t' || c == '\n' || c == '\U{000B}' || c == '\U{000C}' || c == '\r'
    || c == ' ' || c == '\U{00A0}' || c == '\U{1680}'
    || ('\U{2000}' <= c <= '\U{200A}')
    || c == '\U{2028}' || c == '\U{2029}' || c == '\U{202F}' || c == '\U{205F}'
    || c == '\U{3000}' || c == '\U{FEFF}'
  }

  predicate AllWhitespace(s: string) {
    forall i :: 0 <= i < |s| ==> IsWhitespace(s[i])
  }

  /** Drops leading whitespace. */
  function TrimStart(s: string): (r: string)
    ensures |r| <= |s| && r == s[|s| - |r|..]
    ensures AllWhitespace(s[..|s| - |r|])
    ensures |r| > 0 ==> !IsWhitespace(r[0])
    decreases |s|
  {
    if |s| > 0 && IsWhitespace(s[0]) then TrimStart(s[1..]) else s
  }

  /** Drops trailing whitespace. */
  function TrimEnd(s: string): (r: string)
    ensures |r| <= |s| && r == s[..|r|]
    ensures AllWhitespace(s[|r|..])
    ensures |r| > 0 ==> !IsWhitespace(r[|r| - 1])
    decreases |s|
  {
    if |s| > 0 && IsWhitespace(s[|s| - 1]) then TrimEnd(s[..|s| - 1]) else s
  }

  /** `r` is `s` with the first `k` characters and some trailing characters
      removed, all of them whitespace. */
  predicate StripsWhitespace(s: string, r: string, k: nat) {
    && k + |r| <= |s|
    && r == s[k..k + |r|]
    && AllWhitespace(s[..k])
    && AllWhitespace(s[k + |r|..])
  }

  /** `s.trim()`: the slice left after both ends lose their whitespace. */
  function Trim(s: string): (r: string)
    ensures exists k: nat :: StripsWhitespace(s, r, k)
    ensures |r| > 0 ==> !IsWhitespace(r[0]) && !IsWhitespace(r[|r| - 1])
  {
    var t := TrimStart(s);
    var r := TrimEnd(t);
    assert StripsWhitespace(s, r, |s| - |t|) by {
      StripTwice(s, t, r);
    }
    r
  }

  /** Stripping leading whitespace to get `t`, then trailing whitespace of `t`
      to get `r`, strips whitespace from both ends of `s`. */
  lemma StripTwice(s: string, t: string, r: string)
    requires |t| <= |s| && t == s[|s| - |t|..] && AllWhitespace(s[..|s| - |t|])
    requires |r| <= |t| && r == t[..|r|] && AllWhitespace(t[|r|..])
    ensures StripsWhitespace(s, r, |s| - |t|)
  {
    var k := |s| - |t|;
    assert s[k..][..|r|] == s[k..k + |r|];
    assert s[k..][|r|..] == s[k + |r|..];
  }

  /** Trimming yields the empty string exactly for all-whitespace input. */
  lemma TrimEmptyIff(s: string)
    ensures Trim(s) == "" <==> AllWhitespace(s)
  {
    var t := TrimStart(s);
    if Trim(s) == "" {
      assert AllWhitespace(t[0..]);
      assert |t| == 0;
      assert s[..|s|] == s;
    } else if |t| > 0 {
      assert t[0] == s[|s| - |t|];
    }
  }
}

=== FILE: wrappers.dfy ===
/** The Some/None datatype used wherever a value may be missing and the pages
    treat every way of missing alike: a question bucket, an unanswered
    question, a fetch that produced no exam. Where `undefined` and `null`
    behave differently, as for `correct_answer`, the model uses its own
    datatype instead. */
module Wrappers {

  datatype Option<+T> = None | Some(value: T) {

    /** The value, or `default` when there is none (JavaScript's `x || default`
        for values that are never falsy when present). */
    function GetOr(default: T): T {
      match this
      case Some(v) => v
      case None => default
    }
  }
}
